=== FILE: README.md ===
# MSME scheme editor: edit leases and store transitions

A Dafny model of the core of the MSME scheme editor, a pair of Streamlit front
ends over three MongoDB collections:
- `data_entry.py` is the newer front end;
- `working.py` is the older one.

The three collections are:
- `schemes`: one document per government scheme, keyed by `scheme_id`;
- `locks`: edit leases;
- `user_logs`: an append-only audit log.

The model covers:

- **The edit lease** (`Leases`). The lock collection is a map from scheme id
  to `Lock(holder, lockedAt)`, with time in whole seconds. `Acquire` is one
  atomic step with four cases:
  - a missing lock is created;
  - a lock older than 300 seconds is replaced;
  - the holder's own live lock is renewed;
  - another user's live lock refuses the request.

  `Release` is the unconditional `delete_one`. A trace theorem states the
  guarantee of the lease: a different user takes over a lock only once it is
  more than 300 seconds old.
- **The store and audit transitions** (`Schemes`): save-new, save-existing,
  cancel, delete, the stale-draft rule, and the lease check before the form.
  They are pure functions over `Stores(records, locks, log)`. `Run` strings
  them together in the order one Streamlit script run executes them. Lemmas
  about `Run` show:
  - nothing happens until the user has typed a name;
  - a run touches no other scheme's record or lock than the selected one's,
    and adds a scheme only by a successful new-scheme save;
  - while another user holds a live lease on an existing scheme, saving or
    cancelling it writes nothing (deleting it and saving a new scheme need no
    lease);
  - the log stays consistent with the store;
  - every scheme stays under its own id.
- **Documents** (`Docs`): Python dicts with insertion order. Assignment keeps
  an existing key's position and appends a new key; `pop` removes a key. The
  dict invariant (each key once, order listing exactly the stored keys) is
  proved to be preserved by every operation. Keys are the named fields plus
  `Other(name)` for any other spelling; `Other` never carries a named field's
  spelling, so two keys are equal exactly when they are spelled the same, as
  in Python.
- **The text rules** (`Text`): `str.strip`, the "strip each line, drop blank
  lines" normalisation of list fields, and the `"\n".join` / `splitlines`
  round trip through a text area.
- **Front-end specifics**:
  - `DataEntry`: the new-scheme template, the text a list field's text area
    starts with, the fields the edit form writes, the missing-fields banner,
    and the seed-file de-duplication, including its `KeyError` / `TypeError`
    exits.
  - `Working`: the second copy of `acquire_lock` (proved equal to the first),
    the older template, the generic form that walks the dict's keys, and the
    older missing-keys list (which, unlike the newer banner, does not count
    `{}` as blank).

Both front ends run the same save-new, save-existing and delete code
(`working.py:121-136` and `working.py:79-83` repeat `data_entry.py:328-356`
and `data_entry.py:172-176`), so `Schemes.SaveNew`, `Schemes.SaveExisting`
and `Schemes.Delete` model both.

The stale-draft rule has a consequence worth knowing.
- The "Add New Scheme" draft starts with `scheme_id` "".
- In `data_entry.py` a run only gets past lines 141-142 once a non-empty scheme id
  is selected.
- So the next run drops the draft before the form is read
  (`DataEntry.TemplateDraftDroppedOnNextRun`,
  `Working.TemplateDraftDroppedOnNextRun`).
- Saving the new-scheme form is therefore an edit of the selected scheme's
  record, logged as one "edited" entry, and no new scheme is inserted. This
  holds when that scheme exists and no other user holds a live lease on it
  (`DataEntry.NewSchemeSaveLandsOnSelected`). Under another user's live
  lease the run writes nothing, draft or no draft
  (`Schemes.LiveForeignLeaseBlocksRun`).

This follows from the script's own control flow, given that Streamlit re-runs
the whole script on every submission. It is stated as a property of the model
rather than as a defect, because what the form's widgets return across that
re-run is Streamlit behaviour outside the repository.

## Model

| member | source | states |
|---|---|---|
| `Leases.Acquire` | data_entry.py:54-74 | The lease is granted exactly when no other user holds a live lock (age at most 300 s). A grant leaves the lock as (user, now). A refusal leaves the table unchanged. |
| `Leases.AcquireCases` | data_entry.py:56-74 | The four cases one by one: absent → insert and grant; expired → replace and grant; own live lock → same holder, `locked_at` becomes now; foreign live lock → refuse, no change. |
| `Leases.TakeoverNeedsExpiry` | data_entry.py:59-71 | If another user's lock was taken over, it was more than 300 s old. Age exactly 300 still refuses, because the test is strict. |
| `Leases.Release` | data_entry.py:348 | `delete_one` on the lock: no lock for the id afterwards, every other lock untouched, a missing lock is a no-op. |
| `Leases.OnlyTheGivenEntryChanges` | data_entry.py:54-74 | Acquire and release never add, remove or alter the lock of another scheme id. |
| `Leases.ReplayFrame` | data_entry.py:54-74 | Over any sequence of lease steps, steps on other ids leave the lock on `id` as it was. |
| `Leases.TraceTakeoverNeedsExpiry` | working.py:27-33 | Mutual exclusion over a trace: if A is granted at `ta` and the next request on that id, by B ≠ A at `tb`, is granted, then `tb - ta > 300`. |
| `Leases.StaleLockScenario` | data_entry.py:59-71 | Concrete run: A locks at 0. B is refused at 10 and at 300, and granted at 301 with the lock (B, 301). |
| `Working.AcquireLock` | working.py:23-36 | The older copy, written from the `find_one` result. It grants unless a live lock of another user exists, sets the lock to (user, now) on a grant, and touches no other id. |
| `Working.AcquireLockAgrees` | working.py:23-36 | On every input the two copies of `acquire_lock` return the same answer and the same lock table. |
| `Schemes.Stamp` | data_entry.py:326-327 | Saving sets `last_modified_by` to the user and `last_modified_at` to now. Every other field, and the scheme id, is unchanged. |
| `Schemes.SaveNew` | data_entry.py:328-343 | A blank id is refused, and so is an id already stored. A refusal writes nothing. Otherwise exactly one record is added under the draft's id, every other record is unchanged, the locks are unchanged, and one "created" entry is logged. |
| `Schemes.SaveExisting` | data_entry.py:344-356 | `replace_one` puts the stamped record without `_id` at the selected id, and is a no-op when that record is gone. The set of ids is unchanged and other records are kept. The lock on the id is removed and other locks are kept. Exactly one "edited" entry is logged. |
| `Schemes.Delete` | data_entry.py:172-176 | The record is removed and all others are kept. The lock table is unchanged, since delete bypasses the lease. One "deleted" entry is logged. |
| `Schemes.Cancel` | data_entry.py:358-365 | Cancelling a draft drops it and writes nothing. Cancelling an existing scheme deletes its lock and changes nothing else. |
| `Schemes.DiscardStaleDraft` | data_entry.py:136-138 | The draft is dropped exactly when `selected_id` (None when unset) differs from `draft.get("scheme_id", "")`. The selection is unchanged. |
| `Schemes.Open` | data_entry.py:181-192 | A draft is edited without a lease. A missing record stops the run before any lock is touched. An existing record is shown exactly when the lease is granted, and then the lock is (user, now). |
| `Schemes.Run` | data_entry.py:47-365 | One script run writes at most one log entry, by the running user at the run's time, and only after it deletes, saves an existing scheme or inserts a new one; a run that logs nothing leaves the schemes as they were. A run with nothing selected changes no store, and a run changes no lock but the selected scheme's. Its other behaviour is stated by `NamelessRunChangesNothing`, `RunTouchesOnlyItsScheme`, `LiveForeignLeaseBlocksRun`, `SavedExistingHadLease`, `RunKeepsAuditConsistent` and `RunKeepsKeyedById`. |
| `Schemes.NamelessRunChangesNothing` | data_entry.py:49-52 | A run stops at the name box exactly when no name was typed, and such a run changes neither the session nor the stores. `working.py:18-21` is the same gate. |
| `Schemes.LiveForeignLeaseBlocksRun` | data_entry.py:136-192 | While another user holds a live lock on the selected scheme, a save or cancel run on it writes nothing, also when the session still holds a stale draft (such as the "Add New Scheme" template), which the run drops before the lease check. A named user's run ends as "locked" when the scheme exists. |
| `Schemes.RunTouchesOnlyItsScheme` | data_entry.py:172-363 | Every stored scheme other than the selected one keeps its record, and a scheme a run adds is a new one, inserted by a successful new-scheme save that logs its "created" entry. |
| `Schemes.SavedExistingHadLease` | data_entry.py:344-354 | A run that saved an existing scheme found it stored and not leased by anyone else. It leaves no lock on it, keeps the set of ids, and logs exactly one "edited" entry. |
| `Schemes.RunKeepsAuditConsistent` | data_entry.py:328-356 | After any modelled run, a scheme whose latest log entry is "deleted" is absent, and one whose latest entry is "created" or "edited" is present, provided this held before. The reseeding of an empty store is not a modelled run and breaks this (see "## Left out"). |
| `Schemes.MergeKeepsSchemeId` | data_entry.py:206-211 | Writing a form whose id field is absent or unchanged (the widget is disabled for existing schemes) keeps the document's scheme id. |
| `Schemes.SaveExistingKeepsKeyed` | data_entry.py:346-347 | Replacing a record by a document with the same scheme id keeps every record stored under its own id. |
| `Schemes.SaveNewKeepsKeyed` | data_entry.py:334-335 | Inserting the draft under its own scheme id keeps every record stored under its own id. |
| `Schemes.RunKeepsKeyedById` | data_entry.py:181-356 | After any run, every stored scheme's `scheme_id` equals the key it is stored under. For an existing scheme's form this assumes the submitted id is the selected one, since that widget is disabled for existing schemes (`data_entry.py:209`). A new scheme's form may carry any typed id: it is inserted under that id. |
| `Docs.Parse` | data_entry.py:372 | Reading a key spelling gives a key with that spelling; `Other` only for a spelling no named field has. |
| `Docs.ParseName` | data_entry.py:372 | Reading a key's spelling gives the same key back. |
| `Docs.SameNameSameKey` | data_entry.py:372 | Two keys are equal exactly when they are spelled the same, as Python compares dict keys. |
| `Docs.Put` | data_entry.py:326 | `d[key] = v`: the key now maps to `v`, and every other key keeps its value. |
| `Docs.PutKeepsWellFormed` | data_entry.py:326-327 | Assignment keeps the dict invariant. An existing key keeps its place and a new key goes last. |
| `Docs.Pop` | data_entry.py:346 | `pop("_id", None)`: the key is gone, every other key keeps its value, and the remaining keys keep their order. A missing key is not an error. |
| `Docs.PopKeepsWellFormed` | data_entry.py:346 | `pop` keeps the dict invariant. |
| `Docs.GetPresent` | data_entry.py:372 | In a dict, `get` finds a value exactly for the keys the dict lists. |
| `Docs.Merge` | data_entry.py:206-320 | The form's assignments into the loaded document: every key the form assigns takes the form's value, and every other key keeps its old value. |
| `Docs.MergeKeepsWellFormed` | data_entry.py:206-320 | Writing the form into a dict leaves a dict. |
| `Docs.OrderMatchesFromKeys` | data_entry.py:153-159 | A dict literal with distinct keys satisfies the dict invariant. |
| `Docs.SameGetsSameDoc` | working.py:109-116 | Two dicts with the same key order and the same value under every key are the same dict. |
| `Text.Strip` | data_entry.py:270 | `str.strip()` over ASCII whitespace: the result is a slice of the line with only whitespace before and after it, has no whitespace at either end, and is empty exactly when the line is all whitespace. |
| `Text.StripUnique` | data_entry.py:270 | Any cut of a line into whitespace, a non-empty core with no whitespace at its ends, and whitespace has the strip as its core. |
| `Text.StripFixesStripped` | data_entry.py:270 | A line with no surrounding whitespace strips to itself. |
| `Text.NormaliseLines` | data_entry.py:269-271 | Every kept line is non-empty and already stripped, and there are never more lines than went in. |
| `Text.NormaliseMembership` | data_entry.py:269-271 | A string is in the result exactly when it is non-empty and is the strip of some input line. |
| `Text.NormaliseDistributes` | data_entry.py:269-271 | Normalisation works line by line: normalising `a + b` gives normalised `a` followed by normalised `b`, so the input order is kept. |
| `Text.NormaliseIdempotent` | data_entry.py:269-271 | Normalising a normalised list changes nothing. |
| `Text.SplitLines` | data_entry.py:270 | `splitlines()` with line feed as the boundary: an empty text has no lines, no line holds a line feed, and joining the lines with `"\n"` gives the text back: exactly, or less its final line feed when it ends in one, so a final line feed opens no empty line. |
| `Text.Join` | data_entry.py:262 | `"\n".join`: no items give the empty text, and line-feed-free items give a text at least one character per gap long. What it means is stated by `Text.SplitLines` (splitting undoes it up to a final line feed), `Text.SplitJoinRoundTrip` and `Text.JoinEnds`. |
| `Text.JoinEnds` | data_entry.py:262 | The joined text starts with the first item and ends with the last one. |
| `Text.SplitJoinRoundTrip` | data_entry.py:262-270 | Joining non-empty, line-feed-free items with `"\n"` and splitting the text again gives back the same items. |
| `Text.FormRoundTrip` | data_entry.py:262-271 | For line-feed-free input, showing the normalised list in the text area and normalising it again on save returns the same list. |
| `Text.LinesOfText` | data_entry.py:268-271 | What a list field's text area turns into on save: non-empty, stripped lines with no line feed. |
| `Text.LinesOfTextSettles` | data_entry.py:262-271 | A list that has gone through the text area once is unchanged by a second untouched submission. |
| `Text.NormaliseFixesClean` | data_entry.py:269-271 | A list whose lines are all stripped and non-blank passes normalisation unchanged. |
| `Text.ShownListSurvivesSave` | data_entry.py:300-309 | A stored list field of clean lines, shown joined and saved without edits, comes back exactly as it was. |
| `DataEntry.Template` | data_entry.py:153-159 | The new-scheme template lists the 17 fields in literal order, with an empty scheme id. |
| `DataEntry.TemplateWellFormed` | data_entry.py:153-159 | The template literal is a well-formed dict. |
| `DataEntry.ListPrefill` | data_entry.py:262 | A list field's text area starts with "" when the field is missing and with the items joined by line feeds when it is a list. A string is joined character by character. None or a timestamp raises `TypeError`. |
| `DataEntry.StoredListSurvivesPrefill` | data_entry.py:300-309 | A stored list of clean items is shown in its text area and, saved again unedited, comes back as it was. |
| `DataEntry.StoredTextSplitIntoCharacters` | data_entry.py:262-271 | A string without whitespace stored under a list field is saved back, unedited, as the list of its characters. |
| `DataEntry.FormEdits` | data_entry.py:206-320 | The form assigns 15 fields, in widget order. |
| `DataEntry.FormEditsValues` | data_entry.py:206-320 | The three list fields get the stripped, non-blank lines of their text areas, the status gets the chosen option ("" when unset), and the id gets the id widget's text. |
| `DataEntry.FormEditsWellFormed` | data_entry.py:206-320 | The form's assignments form a dict with each field once. |
| `DataEntry.MissingFields` | data_entry.py:368-372 | A required field is reported exactly when it is absent or holds None, "", [] or {}. Reports follow the order of the required-fields list. |
| `DataEntry.TemplateMissesAllRequired` | data_entry.py:368-372 | A fresh template reports all seven required fields, in list order. |
| `DataEntry.TemplateDraftDroppedOnNextRun` | data_entry.py:136-138 | A fresh draft (scheme id "") is dropped by the next run whenever a non-empty id is selected. |
| `DataEntry.NewSchemeSaveLandsOnSelected` | data_entry.py:136-192 | Submitting a fresh draft's form while an existing scheme that no other user holds a live lease on is selected saves over that scheme. The ids are unchanged and one "edited" entry is logged. |
| `DataEntry.FindUnkeyed` | data_entry.py:87-88 | Returns the first seed document whose `scheme_id` is missing (`KeyError`) or a list or dict (`TypeError`). Returns none exactly when every document has a usable id. |
| `DataEntry.SplitSeed` | data_entry.py:83-92 | The loop keeps exactly the first document of each id not already stored, with `_id` removed, in file order. It lists every other id as a duplicate, in file order. |
| `DataEntry.FirstOccurrencesKeys` | data_entry.py:89-91 | The kept documents carry pairwise distinct ids. None of those ids was already stored, and each comes from the file. |
| `DataEntry.SeedPartition` | data_entry.py:83-92 | The multiset of the file's ids is the kept ids plus the duplicate ids: each input id goes to exactly one side. |
| `DataEntry.DedupSeed` | data_entry.py:83-92 | The whole step. On an unusable id it fails at the first such document, and nothing is inserted. Otherwise it returns the first occurrences with distinct, new ids, and the duplicates, which together partition the file's ids. |
| `Working.Template` | working.py:67-73 | The older template: the same 17 keys, with `eligibility` an empty string rather than an empty list. |
| `Working.TemplateWellFormed` | working.py:67-73 | The older template literal is a well-formed dict. |
| `Working.FieldAfterForm` | working.py:112-116 | A list value comes back as non-empty, stripped lines without line feeds. Any other value comes back as the typed text; left untouched, a text is kept and None or {} becomes "". |
| `Working.ListFieldIsNormalisedText` | working.py:112-114 | A list field becomes the stripped, non-blank lines of its text area (the joined old list when untouched), in their original order. |
| `Working.FieldAfterFormSettles` | working.py:109-116 | Submitting the same widget texts twice gives what submitting them once gave. |
| `Working.FillKeys` | working.py:109-116 | The loop over the dict's keys rewrites every field it visits except `scheme_id`, and leaves the key order alone. |
| `Working.FillForm` | working.py:107-116 | The form keeps the dict's keys and their order. It sets the id to the id widget's text and rewrites every other field as its widget returns it. |
| `Working.FillFormSettles` | working.py:107-116 | A second untouched submission of the form leaves the document unchanged. |
| `Working.MissingKeys` | working.py:143 | Key k is reported exactly when its value is None, [] or "" and k is not `scheme_id` or `tags`. Reports follow dict order. |
| `Working.MissingAgreesWithRequired` | working.py:143 | On a required field the dict has, both front ends agree on "missing", except for `{}`, which only the newer banner reports. A required field the dict lacks is reported by the newer banner (`data_entry.py:372`) and not by the older list. |
| `Working.DraftKeptIffSameId` | working.py:60-62 | With a scheme selected, the draft survives exactly when its scheme id equals the selection (a draft without one counts as ""). |
| `Working.TemplateDraftDroppedOnNextRun` | working.py:60-73 | The older template's draft is dropped by the next run whenever a non-empty id is selected. |

## Left out

- The Streamlit user interface is not modelled: widgets, tabs, CSS and HTML,
  the prompt text and clipboard script, and `st.stop` / `st.rerun`. A run is
  modelled as one pass of `Schemes.Run` with the user's single click as input.
- The sidebar search form (`data_entry.py:113-127`) only sets the selection,
  so the selection is an input of the model.
- MongoDB client setup and wire semantics are not modelled. The collections
  are a map of records keyed by scheme id, a map of locks, and a sequence of
  log entries.
- Scheme ids are assumed unique in the store, because the store is a map from
  id to record. The real collection enforces no such rule, and both front ends
  write the same collection (`data_entry.py:12-13`, `working.py:12-13`).
  `working.py:45` seeds the file with `insert_many` and no de-duplication, so
  the store can hold several schemes with one id. `delete_one` at
  `data_entry.py:172` then removes only one of them, and the scheme stays
  present after its "deleted" entry. `Schemes.Delete` (the deleted id is gone)
  and `Schemes.RunKeepsAuditConsistent` hold only under the uniqueness
  assumption.
- Field values are limited to None, a string, a list of strings, a
  timestamp and an embedded object (`Docs.Value`). Numbers, booleans, nested
  lists and lists holding anything but strings are not modelled, though a
  JSON seed file (`data_entry.py:81`) can contain them. On such values the
  program does things the model cannot show: `"\n".join` over a list holding
  None raises `TypeError` (`data_entry.py:262`), `0 or ""` gives ""
  (`working.py:116`), and a numeric `scheme_id` is a usable seed key
  (`data_entry.py:88`).
- Mongo's own `_id` on stored records is not modelled. The model keeps only
  the `pop("_id")` applied before a replace or a seed insert.
- The race between `find_one` and the write in `acquire_lock` is not
  modelled. It concerns concurrent requests only; each acquisition is one
  atomic step.
- `datetime.utcnow()` is replaced by one integer `now` per run, in seconds,
  and `total_seconds()` float arithmetic by integer subtraction. The several
  `utcnow()` calls of one save are a single instant.
- The `strftime` display of the last log entry is not modelled, because it is
  display only.
- The JSON file reading, `insert_many` and the `BulkWriteError` handler are I/O.
  Only the de-duplication loop before them is modelled. `working.py` seeds
  without de-duplication (`working.py:41-47`), which is a plain insert.
- The seed's existing ids are given as a set of values. Reading them from the
  collection is I/O.
- `Text.Strip` uses ASCII whitespace only, not Unicode whitespace.
- `Text.SplitLines` uses line feed as the only boundary, not the other
  boundaries Python's `splitlines` recognises.
- `Working.FieldAfterForm` keeps a timestamp or a non-empty embedded object
  unchanged when its text area is untouched. What Streamlit shows and returns
  for such a non-string `value or ""` is outside the repository.
- `Docs.Merge`: its per-key statement assumes the form's edits are a
  well-formed dict, which every dict built by the form is
  (`DataEntry.FormEditsWellFormed`).
- The case-insensitive search match and the selection box's option list are
  not modelled. Field keys are a datatype of the named fields plus `Other`
  for any other key a seeded document carries.
- `working.py`'s run is modelled only through its shared save, delete and
  lease code, and the parts the `Working` module lists. `Schemes.Run` follows
  `data_entry.py`. It differs from `working.py` in two ways:
  - `working.py` has no cancel button;
  - `working.py` has no stop on an empty selection, so a stored scheme whose
    id is "" can be selected and edited (`working.py:59`, after seeding
    without any check at `working.py:45`).

  Both scripts seed an empty store and start again (`data_entry.py:78-107`,
  `working.py:41-50`), and `working.py` also stops when the store still holds
  no scheme (`working.py:55-57`); `Schemes.Run` ends with `EmptyStore` there.
- An empty store is seeded, not modelled as a run step. Where a script finds
  the store empty (`data_entry.py:78`), it reads the data file, inserts its
  schemes and starts again (`:96`, `:101`), or stops when there is no file or
  the insert fails (`:104-107`). `Schemes.Run` stops with outcome `EmptyStore`
  and writes nothing at that point. The file read and `insert_many` are I/O;
  only the de-duplication loop is modelled (`DataEntry.DedupSeed`). The insert
  writes no log entry. So once the last scheme is deleted, the next run brings
  back every scheme of the file, including those whose latest entry is
  "deleted". `Schemes.RunKeepsAuditConsistent` covers the modelled runs only,
  not this reseed.
- `Schemes.Run` takes the submitted form as the click's edits. It does not
  model the text areas' starting text (`DataEntry.ListPrefill`), so the
  `TypeError` that a stored None or timestamp in a list field raises before
  the form is shown is not part of a run.

=== FILE: base.dfy ===
/** Option and Result, shared by the other modules. */
module Base {

  datatype Option<+T> = None | Some(value: T)

  datatype Result<+R, +E> = Success(value: R) | Failure(error: E)

  /** `a` is `b` with some elements left out, the rest kept in order. */
  predicate IsSubsequence<T(==)>(a: seq<T>, b: seq<T>)
    decreases |b|
  {
    a == [] || (b != [] && if a[0] == b[0] then IsSubsequence(a[1..], b[1..]) else IsSubsequence(a, b[1..]))
  }
}

=== FILE: data_entry.dfy ===
/**
 The parts of the newer front end that are not shared with the older one:
 its new-scheme template, the values its edit form writes, the missing-fields
 banner, and the de-duplication of the seed file.
 */
module DataEntry {
  import opened Base
  import opened Text
  import opened Docs
  import opened Leases
  import opened Schemes

  /**
   The keys of the new-scheme template, in the order of its dict literal; the
   older front end's template (working.py lines 67-73) lists the same keys in
   the same order.
   */
  const TemplateOrder: seq<Key> :=
    [SchemeId, Jurisdiction, SchemeName, Category, Status, Ministry, TargetGroup, Objective,
     Eligibility, Assistance, KeyBenefits, HowToApply, RequiredDocuments, Tags, Sources,
     LastModifiedBy, LastModifiedAt]

  /** Lines 153-159: the value the template literal gives each key. */
  function TemplateValue(k: Key): Value {
    match k
    case Eligibility => Lines([])
    case Assistance => Lines([])
    case RequiredDocuments => Lines([])
    case LastModifiedBy => Null
    case LastModifiedAt => Null
    case _ => Text("")
  }

  /** The empty document "Add New Scheme" starts from. */
  function Template(): (r: Doc)
    ensures Keys(r) == TemplateOrder
    ensures Get(r, SchemeId) == Some(Text(""))
  {
    Doc(map k | k in TemplateOrder :: TemplateValue(k), TemplateOrder)
  }

  lemma TemplateOrderDistinct()
    ensures Distinct(TemplateOrder)
  {
  }

  lemma TemplateWellFormed()
    ensures WellFormed(Template())
  {
    var r := Template();
    TemplateOrderDistinct();
    assert r.values.Keys == set k | k in TemplateOrder;
    OrderMatchesFromKeys(r.order, r.values);
  }

  /** The choices of the status select box; `Unset` is the empty option. */
  datatype StatusChoice = Active | Inactive | Pending | Unset

  function StatusText(s: StatusChoice): string {
    match s
    case Active => "Active"
    case Inactive => "Inactive"
    case Pending => "Pending"
    case Unset => ""
  }

  /**
   What the user left in each widget of the edit form; the three list fields
   arrive as the text of their text area.
   */
  datatype FormInput = FormInput(
    schemeId: string, jurisdiction: string, schemeName: string, category: string,
    status: StatusChoice, ministry: string, targetGroup: string, objective: string,
    eligibility: string, assistance: string, keyBenefits: string,
    howToApply: string, requiredDocuments: string, tags: string, sources: string)

  /** The keys the edit form assigns, in assignment order. */
  const FormOrder: seq<Key> :=
    [SchemeId, Jurisdiction, SchemeName, Category, Status, Ministry, TargetGroup, Objective,
     Eligibility, Assistance, KeyBenefits, HowToApply, RequiredDocuments, Tags, Sources]

  /** The three list fields, each edited in a text area with one item per line. */
  predicate IsListField(k: Key) {
    k == Eligibility || k == Assistance || k == RequiredDocuments
  }

  /** The text the user left in a list field's text area. */
  function AreaText(f: FormInput, k: Key): string
    requires IsListField(k)
  {
    if k == Eligibility then f.eligibility
    else if k == Assistance then f.assistance
    else f.requiredDocuments
  }

  /** Lines 206-320: the value the form assigns to a key it edits. */
  function FormValue(f: FormInput, k: Key): Value {
    if IsListField(k) then Lines(LinesOfText(AreaText(f, k)))
    else
      match k
      case SchemeId => Text(f.schemeId)
      case Jurisdiction => Text(f.jurisdiction)
      case SchemeName => Text(f.schemeName)
      case Category => Text(f.category)
      case Status => Text(StatusText(f.status))
      case Ministry => Text(f.ministry)
      case TargetGroup => Text(f.targetGroup)
      case Objective => Text(f.objective)
      case KeyBenefits => Text(f.keyBenefits)
      case HowToApply => Text(f.howToApply)
      case Tags => Text(f.tags)
      case Sources => Text(f.sources)
      case _ => Null
  }

  /** Lines 206-320: the fields the form assigns, in assignment order. */
  function FormEdits(f: FormInput): (r: Doc)
    ensures Keys(r) == FormOrder
  {
    Doc(map i | 0 <= i < |FormOrder| :: FormOrder[i] := FormValue(f, FormOrder[i]), FormOrder)
  }

  /** Each key the form shows gets the value its widget returns. */
  lemma FormEditsAt(f: FormInput, i: nat)
    requires i < |FormOrder|
    ensures Get(FormEdits(f), FormOrder[i]) == Some(FormValue(f, FormOrder[i]))
  {
    assert FormOrder[i] in FormEdits(f).values;
  }

  /**
   What the form writes into the fields with special handling: each list
   field gets the stripped, non-blank lines of its text area in the order they
   were typed, the status gets the chosen option, and the id gets the id
   widget's text.
   */
  lemma FormEditsValues(f: FormInput)
    ensures forall k | IsListField(k) :: Get(FormEdits(f), k) == Some(Lines(LinesOfText(AreaText(f, k))))
    ensures Get(FormEdits(f), Status) == Some(Text(StatusText(f.status)))
    ensures Get(FormEdits(f), SchemeId) == Some(Text(f.schemeId))
  {
    forall k | IsListField(k) ensures Get(FormEdits(f), k) == Some(Lines(LinesOfText(AreaText(f, k)))) {
      FormEditsListField(f, k);
    }
    FormEditsStatusAndId(f);
  }

  lemma FormEditsListField(f: FormInput, k: Key)
    requires IsListField(k)
    ensures Get(FormEdits(f), k) == Some(Lines(LinesOfText(AreaText(f, k))))
  {
    var i := if k == Eligibility then 8 else if k == Assistance then 9 else 12;
    assert FormOrder[i] == k;
    FormEditsAt(f, i);
  }

  lemma FormEditsStatusAndId(f: FormInput)
    ensures Get(FormEdits(f), Status) == Some(Text(StatusText(f.status)))
    ensures Get(FormEdits(f), SchemeId) == Some(Text(f.schemeId))
  {
    assert FormOrder[4] == Status;
    FormEditsAt(f, 4);
    assert FormOrder[0] == SchemeId;
    FormEditsAt(f, 0);
  }

  lemma FormOrderDistinct()
    ensures Distinct(FormOrder)
  {
  }

  /** The form's assignments form a dict: each key once, in assignment order. */
  lemma FormEditsWellFormed(f: FormInput)
    ensures WellFormed(FormEdits(f))
  {
    var r := FormEdits(f);
    FormOrderDistinct();
    assert r.values.Keys == set k | k in FormOrder;
    OrderMatchesFromKeys(r.order, r.values);
  }

  /* ---- the text a list field's text area starts with, lines 262, 274 and 300 ---- */

  /** `"\n".join` raises a TypeError on a value it cannot iterate. */
  datatype PrefillError = TypeError

  /** Iterating a string yields its characters, one string each. */
  function Characters(s: string): (r: seq<string>)
    ensures |r| == |s| && forall i :: 0 <= i < |r| ==> r[i] == [s[i]]
  {
    seq(|s|, i requires 0 <= i < |s| => [s[i]])
  }

  /** Iterating a dict yields its keys, in order. */
  function EntryKeys(entries: seq<(string, string)>): (r: seq<string>)
    ensures |r| == |entries| && forall i :: 0 <= i < |r| ==> r[i] == entries[i].0
  {
    seq(|entries|, i requires 0 <= i < |entries| => entries[i].0)
  }

  /**
   `"\n".join(scheme.get(field, []))` for the value stored under a list field:
   a missing field shows nothing, a list shows one item per line, and any other
   iterable value is joined item by item. None and a timestamp cannot be
   iterated and stop the run with a TypeError.
   */
  function ListPrefill(stored: Option<Value>): (r: Result<string, PrefillError>)
    ensures r.Failure? <==> stored.Some? && (stored.value.Null? || stored.value.Time?)
    ensures stored.None? ==> r == Success("")
    ensures stored.Some? && stored.value.Lines? ==> r == Success(Join(stored.value.items))
    ensures stored.Some? && stored.value.Text? ==> r == Success(Join(Characters(stored.value.text)))
  {
    match stored
    case None => Success("")
    case Some(v) =>
      match v
      case Lines(items) => Success(Join(items))
      case Text(s) => Success(Join(Characters(s)))
      case Dict(entries) => Success(Join(EntryKeys(entries)))
      case _ => Failure(TypeError)
  }

  /** A list saved by the form is shown in its text area and, saved again unedited, comes back as it was. */
  lemma StoredListSurvivesPrefill(items: seq<string>)
    requires forall k :: 0 <= k < |items| ==> items[k] != [] && IsStripped(items[k]) && '\n' !in items[k]
    ensures ListPrefill(Some(Lines(items))).Success?
    ensures LinesOfText(ListPrefill(Some(Lines(items))).value) == items
  {
    ShownListSurvivesSave(items);
  }

  /**
   A string stored under a list field is shown one character per line, so an
   unedited save turns it into the list of its characters (whitespace
   characters dropped as blank lines).
   */
  lemma StoredTextSplitIntoCharacters(s: string)
    requires forall i :: 0 <= i < |s| ==> !IsSpace(s[i])
    ensures ListPrefill(Some(Text(s))).Success?
    ensures LinesOfText(ListPrefill(Some(Text(s))).value) == Characters(s)
  {
    var cs := Characters(s);
    forall k | 0 <= k < |cs| ensures cs[k] != [] && IsStripped(cs[k]) && '\n' !in cs[k] {
      assert cs[k] == [s[k]];
    }
    ShownListSurvivesSave(cs);
  }

  /** Lines 367-371: the fields the banner checks, in the order it lists them. */
  const RequiredFields: seq<Key> :=
    [Objective, Eligibility, KeyBenefits, HowToApply, RequiredDocuments, Category, Sources]

  /** `v in (None, "", [], {})`. */
  predicate IsBlank(v: Value) {
    v == Null || v == Text("") || v == Lines([]) || v == Dict([])
  }

  /** `scheme.get(k)` is absent or blank. */
  predicate Unfilled(d: Doc, k: Key) {
    Get(d, k).None? || IsBlank(Get(d, k).value)
  }

  /** The keys of `fields`, in their order, whose value in `d` is unfilled. */
  function UnfilledAmong(fields: seq<Key>, d: Doc): (r: seq<Key>)
    ensures forall k :: k in r <==> k in fields && Unfilled(d, k)
    ensures IsSubsequence(r, fields)
  {
    if fields == [] then []
    else
      var rest := UnfilledAmong(fields[1..], d);
      if Unfilled(d, fields[0]) then [fields[0]] + rest else rest
  }

  /**
   Line 372: a required field is reported exactly when it is missing or
   blank, in the order of the required-fields list.
   */
  function MissingFields(d: Doc): (r: seq<Key>)
    ensures forall k :: k in r <==> k in RequiredFields && Unfilled(d, k)
    ensures IsSubsequence(r, RequiredFields)
  {
    UnfilledAmong(RequiredFields, d)
  }

  /** When every listed field is unfilled, all of them are reported, in order. */
  lemma {:induction false} AllUnfilled(fields: seq<Key>, d: Doc)
    requires forall k :: k in fields ==> Unfilled(d, k)
    ensures UnfilledAmong(fields, d) == fields
  {
    if fields != [] {
      AllUnfilled(fields[1..], d);
    }
  }

  /** A freshly added scheme lacks every required field. */
  lemma TemplateMissesAllRequired()
    ensures MissingFields(Template()) == RequiredFields
  {
    var t := Template();
    assert forall k :: k in RequiredFields ==> Unfilled(t, k) by {
      forall k | k in RequiredFields ensures Unfilled(t, k) {
        assert k in TemplateOrder;
      }
    }
    AllUnfilled(RequiredFields, t);
  }

  /**
   The draft created by "Add New Scheme" has scheme id "", so on the next run
   it is dropped whenever a non-empty scheme id is selected.
   */
  lemma TemplateDraftDroppedOnNextRun(sel: string)
    requires sel != ""
    ensures DiscardStaleDraft(Session(Some(sel), Some(Template()))).draft.None?
  {
  }

  /**
   The consequence for a save: when the form of a fresh draft is submitted
   while an existing scheme is selected and its lease is free, the run drops
   the draft first, so the save is an edit of the selected scheme's record,
   logged as one "edited" entry, and no new scheme is inserted.
   */
  lemma NewSchemeSaveLandsOnSelected(st: Stores, sel: string, user: string, now: int, edits: Doc)
    requires user != ""
    requires sel != "" && sel in st.records
    requires !HeldByOther(st.locks, sel, user, now)
    ensures var r := Run(Template(), st, Session(Some(sel), Some(Template())), user, now, SaveForm(edits));
      && r.outcome == SavedExisting
      && r.stores.records.Keys == st.records.Keys
      && r.stores.log == st.log + [LogEntry(sel, user, Edited, now)]
  {
    TemplateDraftDroppedOnNextRun(sel);
  }

  /* ---- seed file de-duplication, lines 83-92 ---- */

  datatype SeedError = MissingSchemeId(index: nat) | UnhashableSchemeId(index: nat)

  datatype SeedPlan = SeedPlan(unique: seq<Doc>, duplicates: seq<Value>)

  /** Python can put the value in a set: lists and dicts cannot be. */
  predicate Hashable(v: Value) {
    !v.Lines? && !v.Dict?
  }

  /** `doc[SchemeId]` exists and can be looked up in a set. */
  predicate Keyed(d: Doc) {
    Get(d, SchemeId).Some? && Hashable(Get(d, SchemeId).value)
  }

  predicate AllKeyed(docs: seq<Doc>) {
    forall j :: 0 <= j < |docs| ==> Keyed(docs[j])
  }

  function SeedKey(d: Doc): Value
    requires Keyed(d)
  {
    Get(d, SchemeId).value
  }

  function SeedKeys(docs: seq<Doc>): (r: seq<Value>)
    requires AllKeyed(docs)
    ensures |r| == |docs| && forall j :: 0 <= j < |docs| ==> r[j] == SeedKey(docs[j])
  {
    if docs == [] then [] else SeedKeys(docs[..|docs| - 1]) + [SeedKey(docs[|docs| - 1])]
  }

  /** Document `i` is the first with its scheme id, and that id is not stored yet. */
  predicate FirstOfItsId(existing: set<Value>, docs: seq<Doc>, i: nat)
    requires AllKeyed(docs) && i < |docs|
  {
    SeedKey(docs[i]) !in existing && forall j :: 0 <= j < i ==> SeedKey(docs[j]) != SeedKey(docs[i])
  }

  /** The documents kept: each first occurrence of a new id, `_id` removed, in file order. */
  function FirstOccurrences(existing: set<Value>, docs: seq<Doc>): seq<Doc>
    requires AllKeyed(docs)
  {
    if docs == [] then []
    else
      var n := |docs| - 1;
      FirstOccurrences(existing, docs[..n])
      + if FirstOfItsId(existing, docs, n) then [Pop(docs[n], MongoId)] else []
  }

  /** The ids skipped: every later occurrence, and every id already stored. */
  function LaterOccurrences(existing: set<Value>, docs: seq<Doc>): seq<Value>
    requires AllKeyed(docs)
  {
    if docs == [] then []
    else
      var n := |docs| - 1;
      LaterOccurrences(existing, docs[..n])
      + if FirstOfItsId(existing, docs, n) then [] else [SeedKey(docs[n])]
  }

  lemma AllKeyedPrefix(docs: seq<Doc>, n: nat)
    requires AllKeyed(docs) && n <= |docs|
    ensures AllKeyed(docs[..n])
  {
    forall j | 0 <= j < n ensures Keyed(docs[..n][j]) {
      assert docs[..n][j] == docs[j];
    }
  }

  /** Extending the prefix by one document extends its keys by that document's key. */
  lemma SeedKeysStep(docs: seq<Doc>, n: nat)
    requires AllKeyed(docs) && n < |docs|
    ensures AllKeyed(docs[..n]) && AllKeyed(docs[..n + 1])
    ensures SeedKeys(docs[..n + 1]) == SeedKeys(docs[..n]) + [SeedKey(docs[n])]
  {
    AllKeyedPrefix(docs, n);
    AllKeyedPrefix(docs, n + 1);
    assert docs[..n + 1][..n] == docs[..n];
  }

  /**
   Python raises at the first document whose `scheme_id` is missing (a
   `KeyError`) or is a list or dict (a `TypeError` on set membership).
   */
  method FindUnkeyed(docs: seq<Doc>) returns (r: Option<SeedError>)
    ensures r.None? <==> AllKeyed(docs)
    ensures r.Some? ==>
      var i := r.value.index;
      && i < |docs| && !Keyed(docs[i]) && (forall j :: 0 <= j < i ==> Keyed(docs[j]))
      && (r.value.MissingSchemeId? <==> Get(docs[i], SchemeId).None?)
  {
    var i := 0;
    while i < |docs|
      invariant 0 <= i <= |docs|
      invariant forall j :: 0 <= j < i ==> Keyed(docs[j])
    {
      var id := Get(docs[i], SchemeId);
      if id.None? {
        return Some(MissingSchemeId(i));
      }
      if !Hashable(id.value) {
        return Some(UnhashableSchemeId(i));
      }
      i := i + 1;
    }
    return None;
  }

  /** Document `i` is the first of its id when its id is neither stored nor among the earlier ids. */
  lemma FirstOfItsIdStep(existing: set<Value>, docs: seq<Doc>, i: nat)
    requires AllKeyed(docs) && i < |docs|
    ensures AllKeyed(docs[..i])
    ensures FirstOfItsId(existing, docs, i) <==> SeedKey(docs[i]) !in existing && SeedKey(docs[i]) !in SeedKeys(docs[..i])
  {
    AllKeyedPrefix(docs, i);
    var ks := SeedKeys(docs[..i]);
    if SeedKey(docs[i]) in ks {
      var j :| 0 <= j < |ks| && ks[j] == SeedKey(docs[i]);
      assert docs[..i][j] == docs[j];
    }
    forall j | 0 <= j < i ensures SeedKey(docs[j]) == ks[j] {
      assert docs[..i][j] == docs[j];
    }
  }

  lemma SeedKeysSnoc(docs: seq<Doc>, d: Doc)
    requires AllKeyed(docs) && Keyed(d)
    ensures AllKeyed(docs + [d])
    ensures SeedKeys(docs + [d]) == SeedKeys(docs) + [SeedKey(d)]
  {
    assert (docs + [d])[..|docs|] == docs;
  }

  /** Removing `_id` leaves the scheme id alone. */
  lemma PopKeepsSeedKey(d: Doc)
    requires Keyed(d)
    ensures Keyed(Pop(d, MongoId)) && SeedKey(Pop(d, MongoId)) == SeedKey(d)
  {
  }

  lemma {:induction false} FirstOccurrencesKeyed(existing: set<Value>, docs: seq<Doc>)
    requires AllKeyed(docs)
    ensures AllKeyed(FirstOccurrences(existing, docs))
    decreases |docs|
  {
    if docs != [] {
      var n := |docs| - 1;
      AllKeyedPrefix(docs, n);
      FirstOccurrencesKeyed(existing, docs[..n]);
      var pre := FirstOccurrences(existing, docs[..n]);
      if FirstOfItsId(existing, docs, n) {
        var kept := Pop(docs[n], MongoId);
        PopKeepsSeedKey(docs[n]);
        SeedKeysSnoc(pre, kept);
        assert FirstOccurrences(existing, docs) == pre + [kept];
      } else {
        assert FirstOccurrences(existing, docs) == pre;
      }
    }
  }

  /** No two of the documents share a scheme id. */
  predicate DistinctIds(docs: seq<Doc>)
    requires AllKeyed(docs)
  {
    forall a, b :: 0 <= a < b < |docs| ==> SeedKey(docs[a]) != SeedKey(docs[b])
  }

  /**
   The kept documents carry pairwise distinct ids, none of them stored
   already, each taken from the file.
   */
  lemma FirstOccurrencesKeys(existing: set<Value>, docs: seq<Doc>)
    requires AllKeyed(docs)
    ensures AllKeyed(FirstOccurrences(existing, docs))
    ensures forall d :: d in FirstOccurrences(existing, docs) ==>
      SeedKey(d) !in existing && SeedKey(d) in SeedKeys(docs)
    ensures DistinctIds(FirstOccurrences(existing, docs))
  {
    FirstOccurrencesFromFile(existing, docs);
    FirstOccurrencesDistinct(existing, docs);
  }

  /** Each kept id is new and comes from the file. */
  lemma {:induction false} FirstOccurrencesFromFile(existing: set<Value>, docs: seq<Doc>)
    requires AllKeyed(docs)
    ensures AllKeyed(FirstOccurrences(existing, docs))
    ensures forall d :: d in FirstOccurrences(existing, docs) ==>
      SeedKey(d) !in existing && SeedKey(d) in SeedKeys(docs)
    decreases |docs|
  {
    FirstOccurrencesKeyed(existing, docs);
    if docs != [] {
      var n := |docs| - 1;
      OccurrencesStep(existing, docs, n);
      FirstOccurrencesFromFile(existing, docs[..n]);
      assert docs[..n + 1] == docs;
      var pre := FirstOccurrences(existing, docs[..n]);
      var k := SeedKey(docs[n]);
      if k !in existing && k !in SeedKeys(docs[..n]) {
        PopKeepsSeedKey(docs[n]);
        NewIdsSnoc(pre, Pop(docs[n], MongoId), existing, SeedKeys(docs[..n]));
      } else {
        NewIdsGrow(pre, existing, SeedKeys(docs[..n]), k);
      }
    }
  }

  /** No two kept documents share an id. */
  lemma {:induction false} FirstOccurrencesDistinct(existing: set<Value>, docs: seq<Doc>)
    requires AllKeyed(docs)
    ensures AllKeyed(FirstOccurrences(existing, docs))
    ensures DistinctIds(FirstOccurrences(existing, docs))
    decreases |docs|
  {
    FirstOccurrencesKeyed(existing, docs);
    if docs != [] {
      var n := |docs| - 1;
      OccurrencesStep(existing, docs, n);
      FirstOccurrencesDistinct(existing, docs[..n]);
      FirstOccurrencesFromFile(existing, docs[..n]);
      assert docs[..n + 1] == docs;
      var k := SeedKey(docs[n]);
      if k !in existing && k !in SeedKeys(docs[..n]) {
        PopKeepsSeedKey(docs[n]);
        DistinctIdsSnoc(FirstOccurrences(existing, docs[..n]), Pop(docs[n], MongoId));
      }
    }
  }

  /**
   What one more document does to the loop's results: a new id keeps the
   document, `_id` removed, and any other id is listed as a duplicate.
   */
  lemma OccurrencesStep(existing: set<Value>, docs: seq<Doc>, i: nat)
    requires AllKeyed(docs) && i < |docs|
    ensures AllKeyed(docs[..i]) && AllKeyed(docs[..i + 1])
    ensures SeedKeys(docs[..i + 1]) == SeedKeys(docs[..i]) + [SeedKey(docs[i])]
    ensures SeedKey(docs[i]) !in existing && SeedKey(docs[i]) !in SeedKeys(docs[..i]) ==>
      FirstOccurrences(existing, docs[..i + 1]) == FirstOccurrences(existing, docs[..i]) + [Pop(docs[i], MongoId)]
      && LaterOccurrences(existing, docs[..i + 1]) == LaterOccurrences(existing, docs[..i])
    ensures !(SeedKey(docs[i]) !in existing && SeedKey(docs[i]) !in SeedKeys(docs[..i])) ==>
      FirstOccurrences(existing, docs[..i + 1]) == FirstOccurrences(existing, docs[..i])
      && LaterOccurrences(existing, docs[..i + 1]) == LaterOccurrences(existing, docs[..i]) + [SeedKey(docs[i])]
  {
    SeedKeysStep(docs, i);
    var prefix := docs[..i + 1];
    assert prefix[..i] == docs[..i] && prefix[i] == docs[i];
    FirstOfItsIdStep(existing, prefix, i);
  }

  /** Keeping one more new id keeps every kept id new and drawn from the file. */
  lemma NewIdsSnoc(pre: seq<Doc>, kept: Doc, existing: set<Value>, keys: seq<Value>)
    requires AllKeyed(pre) && Keyed(kept) && SeedKey(kept) !in existing
    requires forall d :: d in pre ==> SeedKey(d) !in existing && SeedKey(d) in keys
    ensures AllKeyed(pre + [kept])
    ensures forall d :: d in pre + [kept] ==> SeedKey(d) !in existing && SeedKey(d) in keys + [SeedKey(kept)]
  {
  }

  /** A duplicate adds to the file's ids but not to the kept ones. */
  lemma NewIdsGrow(pre: seq<Doc>, existing: set<Value>, keys: seq<Value>, k: Value)
    requires AllKeyed(pre)
    requires forall d :: d in pre ==> SeedKey(d) !in existing && SeedKey(d) in keys
    ensures forall d :: d in pre ==> SeedKey(d) !in existing && SeedKey(d) in keys + [k]
  {
  }

  /** A kept document whose id no earlier kept one has keeps the ids distinct. */
  lemma DistinctIdsSnoc(pre: seq<Doc>, kept: Doc)
    requires AllKeyed(pre) && Keyed(kept) && DistinctIds(pre)
    requires forall d :: d in pre ==> SeedKey(d) != SeedKey(kept)
    ensures AllKeyed(pre + [kept]) && DistinctIds(pre + [kept])
  {
    var u := pre + [kept];
    forall a, b | 0 <= a < b < |u| ensures SeedKey(u[a]) != SeedKey(u[b]) {
      assert u[a] == pre[a] && u[a] in pre;
      if b < |pre| {
        assert u[b] == pre[b];
      }
    }
  }

  /** Every id of the file is counted once: either its document is kept or it is listed as a duplicate. */
  lemma {:induction false} SeedPartition(existing: set<Value>, docs: seq<Doc>)
    requires AllKeyed(docs)
    ensures AllKeyed(FirstOccurrences(existing, docs))
    ensures multiset(SeedKeys(docs))
         == multiset(SeedKeys(FirstOccurrences(existing, docs))) + multiset(LaterOccurrences(existing, docs))
    decreases |docs|
  {
    FirstOccurrencesKeyed(existing, docs);
    if docs == [] {
      PartitionEmpty(SeedKeys(docs), SeedKeys(FirstOccurrences(existing, docs)), LaterOccurrences(existing, docs));
    } else {
      var n := |docs| - 1;
      OccurrencesStep(existing, docs, n);
      SeedPartition(existing, docs[..n]);
      assert docs[..n + 1] == docs;
      var pre := FirstOccurrences(existing, docs[..n]);
      var k := SeedKey(docs[n]);
      var first := k !in existing && k !in SeedKeys(docs[..n]);
      if first {
        PopKeepsSeedKey(docs[n]);
        SeedKeysSnoc(pre, Pop(docs[n], MongoId));
      }
      PartitionStep(SeedKeys(docs[..n]), SeedKeys(pre), LaterOccurrences(existing, docs[..n]), SeedKey(docs[n]), first,
        SeedKeys(docs), SeedKeys(FirstOccurrences(existing, docs)), LaterOccurrences(existing, docs));
    }
  }

  lemma PartitionEmpty<T>(all: seq<T>, kept: seq<T>, skipped: seq<T>)
    requires all == [] && kept == [] && skipped == []
    ensures multiset(all) == multiset(kept) + multiset(skipped)
  {
  }

  /** One more id either joins the kept ids or the skipped ones; the partition survives. */
  lemma PartitionStep<T>(all: seq<T>, kept: seq<T>, skipped: seq<T>, k: T, first: bool,
                         all': seq<T>, kept': seq<T>, skipped': seq<T>)
    requires multiset(all) == multiset(kept) + multiset(skipped)
    requires all' == all + [k]
    requires first ==> kept' == kept + [k] && skipped' == skipped
    requires !first ==> kept' == kept && skipped' == skipped + [k]
    ensures multiset(all') == multiset(kept') + multiset(skipped')
  {
  }

  /**
   The loop over a file whose documents all carry a usable id: each document
   is kept, `_id` removed, when its id is new, and otherwise its id is
   recorded as a duplicate.
   */
  method SplitSeed(existing: set<Value>, docs: seq<Doc>) returns (unique: seq<Doc>, dups: seq<Value>)
    requires AllKeyed(docs)
    ensures unique == FirstOccurrences(existing, docs)
    ensures dups == LaterOccurrences(existing, docs)
  {
    var seen := existing;
    unique, dups := [], [];
    var i := 0;
    assert docs[..0] == [];
    while i < |docs|
      invariant 0 <= i <= |docs|
      invariant AllKeyed(docs[..i])
      invariant forall v :: v in seen <==> v in existing || v in SeedKeys(docs[..i])
      invariant unique == FirstOccurrences(existing, docs[..i])
      invariant dups == LaterOccurrences(existing, docs[..i])
    {
      var id := SeedKey(docs[i]);
      OccurrencesStep(existing, docs, i);
      if id !in seen {
        seen := seen + {id};
        unique := unique + [Pop(docs[i], MongoId)];
      } else {
        dups := dups + [id];
      }
      i := i + 1;
    }
    assert docs[..i] == docs;
  }

  /**
   Lines 83-92: de-duplicate the seed file against the ids already stored. A
   document without a usable `scheme_id` stops the loop with the error Python
   raises there; the insert comes after the loop, so nothing is inserted then.
   */
  method DedupSeed(existing: set<Value>, docs: seq<Doc>) returns (r: Result<SeedPlan, SeedError>)
    ensures r.Success? <==> AllKeyed(docs)
    ensures r.Failure? ==>
      var i := r.error.index;
      && i < |docs| && !Keyed(docs[i]) && (forall j :: 0 <= j < i ==> Keyed(docs[j]))
      && (r.error.MissingSchemeId? <==> Get(docs[i], SchemeId).None?)
    ensures r.Success? ==>
      && AllKeyed(docs) && AllKeyed(r.value.unique)
      && r.value.unique == FirstOccurrences(existing, docs)
      && r.value.duplicates == LaterOccurrences(existing, docs)
      && DistinctIds(r.value.unique)
      && (forall d :: d in r.value.unique ==> SeedKey(d) !in existing)
      && multiset(SeedKeys(docs)) == multiset(SeedKeys(r.value.unique)) + multiset(r.value.duplicates)
  {
    var bad := FindUnkeyed(docs);
    if bad.Some? {
      return Failure(bad.value);
    }
    var unique, dups := SplitSeed(existing, docs);
    FirstOccurrencesKeys(existing, docs);
    SeedPartition(existing, docs);
    return Success(SeedPlan(unique, dups));
  }
}

=== FILE: docs.dfy ===
/**
 Scheme documents as the editor sees them: Python dicts, which map each key to
 one value and remember the order in which keys were first inserted. Assigning
 to an existing key keeps its position, assigning to a new key appends it, and
 `pop` removes it.
 */
module Docs {
  import opened Base

  /** The field values that occur in a scheme document. */
  datatype Value =
    | Null                                // None
    | Text(text: string)                  // str
    | Lines(items: seq<string>)           // list of str
    | Time(seconds: int)                  // datetime, in whole seconds
    | Dict(entries: seq<(string, string)>)  // an embedded object, its keys in order

  /**
   The spellings of a document key: the fields the editor knows by name,
   Mongo's `_id`, and `Other` for any other key a seeded document may carry.
   */
  datatype AnyKey =
    | SchemeId | Jurisdiction | SchemeName | Category | Status | Ministry
    | TargetGroup | Objective | Eligibility | Assistance | KeyBenefits
    | HowToApply | RequiredDocuments | Tags | Sources | LastModifiedBy
    | LastModifiedAt | MongoId | Other(name: string)

  /** The key as it is spelled in the documents. */
  function Name(k: AnyKey): string {
    match k
    case SchemeId => "scheme_id"
    case Jurisdiction => "jurisdiction"
    case SchemeName => "scheme_name"
    case Category => "category"
    case Status => "status"
    case Ministry => "ministry"
    case TargetGroup => "target_group"
    case Objective => "objective"
    case Eligibility => "eligibility"
    case Assistance => "assistance"
    case KeyBenefits => "key_benefits"
    case HowToApply => "how_to_apply"
    case RequiredDocuments => "required_documents"
    case Tags => "tags"
    case Sources => "sources"
    case LastModifiedBy => "last_modified_by"
    case LastModifiedAt => "last_modified_at"
    case MongoId => "_id"
    case Other(n) => n
  }

  /** Reads a key as spelled in a document: a named field, or `Other` for any other string. */
  function Parse(n: string): (k: AnyKey)
    ensures Name(k) == n
    ensures k.Other? <==> n !in FieldNames
    ensures k.Other? ==> k == Other(n)
  {
    if n == "scheme_id" then SchemeId
    else if n == "jurisdiction" then Jurisdiction
    else if n == "scheme_name" then SchemeName
    else if n == "category" then Category
    else if n == "status" then Status
    else if n == "ministry" then Ministry
    else if n == "target_group" then TargetGroup
    else if n == "objective" then Objective
    else if n == "eligibility" then Eligibility
    else if n == "assistance" then Assistance
    else if n == "key_benefits" then KeyBenefits
    else if n == "how_to_apply" then HowToApply
    else if n == "required_documents" then RequiredDocuments
    else if n == "tags" then Tags
    else if n == "sources" then Sources
    else if n == "last_modified_by" then LastModifiedBy
    else if n == "last_modified_at" then LastModifiedAt
    else if n == "_id" then MongoId
    else Other(n)
  }

  /** The spellings of the named keys. */
  const FieldNames: set<string> :=
    {"scheme_id", "jurisdiction", "scheme_name", "category", "status", "ministry",
     "target_group", "objective", "eligibility", "assistance", "key_benefits",
     "how_to_apply", "required_documents", "tags", "sources", "last_modified_by",
     "last_modified_at", "_id"}

  /** `Other` is only used for a spelling that no named field has. */
  predicate Canonical(k: AnyKey) {
    !k.Other? || k.name !in FieldNames
  }

  /** A key of a scheme document: Python compares keys by their spelling, and so do these. */
  type Key = k: AnyKey | Canonical(k) witness SchemeId

  /** Reading a key's spelling gives the key back. */
  lemma ParseName(k: Key)
    ensures Parse(Name(k)) == k
  {
  }

  /** Two keys are the same key exactly when they are spelled the same. */
  lemma SameNameSameKey(a: Key, b: Key)
    ensures a == b <==> Name(a) == Name(b)
  {
    ParseName(a);
    ParseName(b);
  }

  /**
   A dict: the value stored under each key, and the keys in insertion order.
   Every operation below keeps `WellFormed`, the invariant of a Python dict.
   */
  datatype Doc = Doc(values: map<Key, Value>, order: seq<Key>)

  predicate Distinct<T(==)>(s: seq<T>) {
    forall i, j :: 0 <= i < j < |s| ==> s[i] != s[j]
  }

  /**
   `order` lists every key of `values` exactly once: peeling the first key off
   the order and out of the map leaves a pair that matches again.
   */
  predicate OrderMatches(order: seq<Key>, values: map<Key, Value>)
    decreases |order|
  {
    if order == [] then values == map[]
    else order[0] in values && OrderMatches(order[1..], values - {order[0]})
  }

  /** Each key appears once in `order`, and `order` holds exactly the keys of `values`. */
  predicate WellFormed(d: Doc) {
    OrderMatches(d.order, d.values)
  }

  lemma {:induction false} OrderMatchesKeys(order: seq<Key>, values: map<Key, Value>)
    requires OrderMatches(order, values)
    ensures forall k :: k in order <==> k in values
    ensures Distinct(order)
    decreases |order|
  {
    if order != [] {
      var rest := values - {order[0]};
      OrderMatchesKeys(order[1..], rest);
      assert order == [order[0]] + order[1..];
      forall i, j | 0 <= i < j < |order| ensures order[i] != order[j] {
        if i == 0 {
          assert order[j] == order[1..][j - 1];
        } else {
          assert order[i] == order[1..][i - 1] && order[j] == order[1..][j - 1];
        }
      }
    }
  }

  lemma {:induction false} OrderMatchesAppend(order: seq<Key>, values: map<Key, Value>, key: Key, v: Value)
    requires OrderMatches(order, values) && key !in values
    ensures OrderMatches(order + [key], values[key := v])
    decreases |order|
  {
    if order == [] {
      assert values == map[];
      assert ([key] + [])[1..] == [];
      assert values[key := v] - {key} == map[];
    } else {
      OrderMatchesKeys(order, values);
      var rest := values - {order[0]};
      OrderMatchesAppend(order[1..], rest, key, v);
      assert (order + [key])[1..] == order[1..] + [key];
      assert values[key := v] - {order[0]} == rest[key := v];
    }
  }

  lemma {:induction false} OrderMatchesUpdate(order: seq<Key>, values: map<Key, Value>, key: Key, v: Value)
    requires OrderMatches(order, values) && key in values
    ensures OrderMatches(order, values[key := v])
    decreases |order|
  {
    var rest := values - {order[0]};
    if order[0] == key {
      assert values[key := v] - {key} == rest;
    } else {
      OrderMatchesUpdate(order[1..], rest, key, v);
      assert values[key := v] - {order[0]} == rest[key := v];
    }
  }

  /** The converse: a duplicate-free order listing exactly the stored keys matches. */
  lemma {:induction false} OrderMatchesFromKeys(order: seq<Key>, values: map<Key, Value>)
    requires Distinct(order)
    requires forall k :: k in order <==> k in values
    ensures OrderMatches(order, values)
    decreases |order|
  {
    if order == [] {
      assert values.Keys == {};
    } else {
      var rest := values - {order[0]};
      forall k ensures k in order[1..] <==> k in rest {
        if k in order[1..] {
          var j :| 1 <= j < |order| && order[j] == k;
          assert order[1..][j - 1] == k;
        }
        if k in rest {
          assert k in order && k != order[0];
          var j :| 0 <= j < |order| && order[j] == k;
          assert order[1..][j - 1] == k;
        }
      }
      assert Distinct(order[1..]) by {
        forall i, j | 0 <= i < j < |order[1..]| ensures order[1..][i] != order[1..][j] {
          assert order[1..][i] == order[i + 1] && order[1..][j] == order[j + 1];
        }
      }
      OrderMatchesFromKeys(order[1..], rest);
    }
  }

  /** The keys of a document, in order. */
  function Keys(d: Doc): seq<Key> {
    d.order
  }

  /** `d.get(key)`: the value stored under `key`, if any. */
  function Get(d: Doc, key: Key): Option<Value> {
    if key in d.values then Some(d.values[key]) else None
  }

  /** In a dict, a key has a value exactly when it is one of the keys. */
  lemma GetPresent(d: Doc, key: Key)
    requires WellFormed(d)
    ensures Get(d, key).Some? <==> key in Keys(d)
  {
    OrderMatchesKeys(d.order, d.values);
  }

  /** Two documents with the same key order and the same value under every key are equal. */
  lemma SameGetsSameDoc(a: Doc, b: Doc)
    requires a.order == b.order
    requires forall k :: Get(a, k) == Get(b, k)
    ensures a == b
  {
    assert a.values.Keys == b.values.Keys by {
      forall k ensures k in a.values <==> k in b.values {
        assert Get(a, k) == Get(b, k);
      }
    }
    forall k | k in a.values ensures a.values[k] == b.values[k] {
      assert Get(a, k) == Get(b, k);
    }
  }

  /** `d[key] = v`. */
  function Put(d: Doc, key: Key, v: Value): (r: Doc)
    ensures Get(r, key) == Some(v)
    ensures forall k :: k != key ==> Get(r, k) == Get(d, k)
  {
    if key in d.values then Doc(d.values[key := v], d.order)
    else Doc(d.values[key := v], d.order + [key])
  }

  /** Assignment keeps the dict invariant: an existing key keeps its place, a new one goes last. */
  lemma PutKeepsWellFormed(d: Doc, key: Key, v: Value)
    requires WellFormed(d)
    ensures WellFormed(Put(d, key, v))
    ensures Keys(Put(d, key, v)) == if key in Keys(d) then Keys(d) else Keys(d) + [key]
  {
    OrderMatchesKeys(d.order, d.values);
    if key in d.values {
      OrderMatchesUpdate(d.order, d.values, key, v);
    } else {
      OrderMatchesAppend(d.order, d.values, key, v);
    }
  }

  /** `s` without the element `x`, order kept. */
  function Remove(s: seq<Key>, x: Key): (r: seq<Key>)
    ensures forall k :: k in r <==> k in s && k != x
    ensures x !in s ==> r == s
    ensures IsSubsequence(r, s)
  {
    if s == [] then []
    else if s[0] == x then
      var rest := Remove(s[1..], x);
      assert rest != [] ==> rest[0] in rest;
      rest
    else
      var rest := Remove(s[1..], x);
      var r := [s[0]] + rest;
      assert r[1..] == rest;
      assert x !in s ==> s == [s[0]] + s[1..];
      r
  }

  lemma OrderMatchesRemoveFirst(order: seq<Key>, values: map<Key, Value>)
    requires order != [] && OrderMatches(order, values)
    ensures OrderMatches(Remove(order, order[0]), values - {order[0]})
  {
    var rest := values - {order[0]};
    OrderMatchesKeys(order[1..], rest);
    assert order[0] !in order[1..];
    assert Remove(order, order[0]) == order[1..];
  }

  lemma {:induction false} OrderMatchesRemove(order: seq<Key>, values: map<Key, Value>, key: Key)
    requires OrderMatches(order, values)
    ensures OrderMatches(Remove(order, key), values - {key})
    decreases |order|
  {
    if order != [] {
      if order[0] == key {
        OrderMatchesRemoveFirst(order, values);
      } else {
        var rest := values - {order[0]};
        OrderMatchesRemove(order[1..], rest, key);
        var r := Remove(order, key);
        assert r[0] == order[0] && r[1..] == Remove(order[1..], key);
        assert (values - {key}) - {order[0]} == rest - {key};
      }
    }
  }

  /** `d.pop(key, None)`: removes `key` if present; a missing key is not an error. */
  function Pop(d: Doc, key: Key): (r: Doc)
    ensures Get(r, key) == None
    ensures forall k :: k != key ==> Get(r, k) == Get(d, k)
    ensures IsSubsequence(Keys(r), Keys(d))
  {
    Doc(d.values - {key}, Remove(d.order, key))
  }

  lemma PopKeepsWellFormed(d: Doc, key: Key)
    requires WellFormed(d)
    ensures WellFormed(Pop(d, key))
  {
    OrderMatchesRemove(d.order, d.values, key);
  }

  /**
   The form writing its widgets' values into the loaded document, one
   assignment per edited key in the edits' order: edited keys take the new
   value, all other keys keep theirs.
   */
  function Merge(d: Doc, edits: Doc): (r: Doc)
    ensures WellFormed(edits) ==>
      forall k :: Get(r, k) == if k in Keys(edits) then Get(edits, k) else Get(d, k)
  {
    assert WellFormed(edits) ==> forall k :: k in edits.order <==> k in edits.values by {
      if WellFormed(edits) { OrderMatchesKeys(edits.order, edits.values); }
    }
    MergeKeys(d, edits, edits.order)
  }

  function MergeKeys(d: Doc, edits: Doc, ks: seq<Key>): (r: Doc)
    ensures forall k :: Get(r, k) == if k in ks && k in edits.values then Get(edits, k) else Get(d, k)
    decreases |ks|
  {
    if ks == [] then d
    else if ks[0] in edits.values then MergeKeys(Put(d, ks[0], edits.values[ks[0]]), edits, ks[1..])
    else MergeKeys(d, edits, ks[1..])
  }

  lemma {:induction false} MergeKeysKeepsWellFormed(d: Doc, edits: Doc, ks: seq<Key>)
    requires WellFormed(d)
    ensures WellFormed(MergeKeys(d, edits, ks))
    decreases |ks|
  {
    if ks != [] {
      if ks[0] in edits.values {
        PutKeepsWellFormed(d, ks[0], edits.values[ks[0]]);
        MergeKeysKeepsWellFormed(Put(d, ks[0], edits.values[ks[0]]), edits, ks[1..]);
      } else {
        MergeKeysKeepsWellFormed(d, edits, ks[1..]);
      }
    }
  }

  /** Writing a form into a dict leaves a dict. */
  lemma MergeKeepsWellFormed(d: Doc, edits: Doc)
    requires WellFormed(d)
    ensures WellFormed(Merge(d, edits))
  {
    MergeKeysKeepsWellFormed(d, edits, edits.order);
  }
}

=== FILE: leases.dfy ===
/**
 The edit lease on a scheme: one lock document per scheme id, naming the user
 who holds it and the second it was taken or last renewed. A lock older than
 `Ttl` seconds is stale and anyone may take it over; stale locks are only ever
 replaced by a later acquisition, never swept.
 */
module Leases {

  /** Seconds after which a lock counts as abandoned. */
  const Ttl: int := 300

  datatype Lock = Lock(holder: string, lockedAt: int)

  /** The lock collection, keyed by scheme id. */
  type LockTable = map<string, Lock>

  /** The lock's age is strictly greater than the time-to-live. */
  predicate Expired(l: Lock, now: int) {
    now - l.lockedAt > Ttl
  }

  /** Someone other than `user` holds a lock on `id` that has not expired. */
  predicate HeldByOther(locks: LockTable, id: string, user: string, now: int) {
    id in locks && !Expired(locks[id], now) && locks[id].holder != user
  }

  datatype Acquisition = Acquisition(granted: bool, locks: LockTable)

  /**
   `acquire_lock(scheme_id, user)` at time `now`, as one atomic step:
   a missing lock is created, a stale one is replaced, the holder's own live
   lock is renewed, and another user's live lock refuses the request.
   */
  function Acquire(locks: LockTable, id: string, user: string, now: int): (r: Acquisition)
    ensures r.granted <==> !HeldByOther(locks, id, user, now)
    ensures r.granted ==> r.locks == locks[id := Lock(user, now)]
    ensures !r.granted ==> r.locks == locks
  {
    if id in locks then
      var l := locks[id];
      if Expired(l, now) then Acquisition(true, locks[id := Lock(user, now)])
      else if l.holder == user then Acquisition(true, locks[id := l.(lockedAt := now)])
      else Acquisition(false, locks)
    else
      Acquisition(true, locks[id := Lock(user, now)])
  }

  /** `locks_coll.delete_one({"scheme_id": id})`: no ownership check, no error when absent. */
  function Release(locks: LockTable, id: string): (r: LockTable)
    ensures id !in r
    ensures forall k :: k != id ==> (k in r <==> k in locks)
    ensures forall k :: k in r ==> r[k] == locks[k]
    ensures id !in locks ==> r == locks
  {
    locks - {id}
  }

  /** The four cases of acquisition, one by one. */
  lemma AcquireCases(locks: LockTable, id: string, user: string, now: int)
    ensures id !in locks ==>
      Acquire(locks, id, user, now) == Acquisition(true, locks[id := Lock(user, now)])
    ensures id in locks && Expired(locks[id], now) ==>
      Acquire(locks, id, user, now) == Acquisition(true, locks[id := Lock(user, now)])
    ensures id in locks && !Expired(locks[id], now) && locks[id].holder == user ==>
      Acquire(locks, id, user, now).granted
      && Acquire(locks, id, user, now).locks[id] == locks[id].(lockedAt := now)
    ensures id in locks && !Expired(locks[id], now) && locks[id].holder != user ==>
      Acquire(locks, id, user, now) == Acquisition(false, locks)
  {
  }

  /** A live lock held by A is never handed to B; an age of exactly `Ttl` is still live. */
  lemma TakeoverNeedsExpiry(locks: LockTable, id: string, b: string, now: int)
    requires id in locks && locks[id].holder != b
    requires Acquire(locks, id, b, now).granted
    ensures now - locks[id].lockedAt > Ttl
  {
  }

  /** Acquisition and release touch no other scheme's lock. */
  lemma OnlyTheGivenEntryChanges(locks: LockTable, id: string, user: string, now: int, k: string)
    requires k != id
    ensures k in Acquire(locks, id, user, now).locks <==> k in locks
    ensures k in locks ==> Acquire(locks, id, user, now).locks[k] == locks[k]
    ensures k in Release(locks, id) <==> k in locks
  {
  }

  /** One step against the lock collection. */
  datatype LeaseEvent =
    | TryAcquire(id: string, user: string, now: int)
    | Free(id: string)

  function Step(locks: LockTable, e: LeaseEvent): LockTable {
    match e
    case TryAcquire(id, user, now) => Acquire(locks, id, user, now).locks
    case Free(id) => Release(locks, id)
  }

  /** The lock collection after a sequence of steps, the last step applied last. */
  function Replay(locks: LockTable, evs: seq<LeaseEvent>): LockTable
    decreases |evs|
  {
    if evs == [] then locks else Step(Replay(locks, evs[..|evs| - 1]), evs[|evs| - 1])
  }

  /** Steps on other schemes leave the lock on `id` as it was. */
  lemma {:induction false} ReplayFrame(locks: LockTable, evs: seq<LeaseEvent>, i: nat, j: nat, id: string)
    requires i <= j <= |evs|
    requires forall k :: i <= k < j ==> evs[k].id != id
    ensures id in Replay(locks, evs[..j]) <==> id in Replay(locks, evs[..i])
    ensures id in Replay(locks, evs[..i]) ==>
      Replay(locks, evs[..j])[id] == Replay(locks, evs[..i])[id]
    decreases j
  {
    if i < j {
      ReplayFrame(locks, evs, i, j - 1, id);
      assert evs[..j][..j - 1] == evs[..j - 1];
      var before := Replay(locks, evs[..j - 1]);
      assert Replay(locks, evs[..j]) == Step(before, evs[j - 1]);
      var e := evs[j - 1];
      if e.TryAcquire? {
        OnlyTheGivenEntryChanges(before, e.id, e.user, e.now, id);
      }
    }
  }

  /**
   The guarantee of the lease: when user A was granted the lock on `id` at
   time `ta` (step i), and the next step on `id` is a request by another user B
   at time `tb` (step j), B is granted the lock only if more than `Ttl` seconds
   passed since A's grant.
   */
  lemma {:induction false} TraceTakeoverNeedsExpiry(locks: LockTable, evs: seq<LeaseEvent>, i: nat, j: nat)
    requires i < j < |evs|
    requires evs[i].TryAcquire? && evs[j].TryAcquire?
    requires evs[i].id == evs[j].id && evs[i].user != evs[j].user
    requires Acquire(Replay(locks, evs[..i]), evs[i].id, evs[i].user, evs[i].now).granted
    requires forall k :: i < k < j ==> evs[k].id != evs[i].id
    requires Acquire(Replay(locks, evs[..j]), evs[j].id, evs[j].user, evs[j].now).granted
    ensures evs[j].now - evs[i].now > Ttl
  {
    var id := evs[i].id;
    assert evs[..i + 1][..i] == evs[..i];
    assert Replay(locks, evs[..i + 1])[id] == Lock(evs[i].user, evs[i].now);
    ReplayFrame(locks, evs, i + 1, j, id);
    TakeoverNeedsExpiry(Replay(locks, evs[..j]), id, evs[j].user, evs[j].now);
  }

  /** A takes the lock at 0; B is refused at 10 and granted at 301, when A's lock is stale. */
  lemma StaleLockScenario()
    ensures var t0 := Acquire(map[], "S1", "A", 0);
            var t1 := Acquire(t0.locks, "S1", "B", 10);
            var t2 := Acquire(t1.locks, "S1", "B", 301);
            t0.granted && !t1.granted && t2.granted && t2.locks["S1"] == Lock("B", 301)
            && !Acquire(t0.locks, "S1", "B", 300).granted
  {
  }
}

=== FILE: schemes.dfy ===
/**
 The editing session controller shared by both front ends: the three
 collections it writes (schemes, locks, user_logs), the save, cancel and
 delete transitions, and one Streamlit script run from top to bottom.
 */
module Schemes {
  import opened Base
  import opened Docs
  import opened Leases

  datatype Action = Created | Edited | Deleted

  /** One `user_logs` document. */
  datatype LogEntry = LogEntry(schemeId: string, user: string, action: Action, timestamp: int)

  /** The three collections: schemes keyed by scheme id, locks, and the append-only log. */
  datatype Stores = Stores(records: map<string, Doc>, locks: LockTable, log: seq<LogEntry>)

  /** `scheme["scheme_id"]` as the form leaves it: a string, or "" when it is not one. */
  function SchemeIdOf(d: Doc): string {
    match Get(d, SchemeId)
    case Some(Text(s)) => s
    case _ => ""
  }

  /** Every stored scheme carries its own key as its scheme id. */
  predicate KeyedById(records: map<string, Doc>) {
    forall id :: id in records ==> SchemeIdOf(records[id]) == id
  }

  /** The action of the most recent log entry for `id`. */
  function LastAction(log: seq<LogEntry>, id: string): Option<Action>
    decreases |log|
  {
    if log == [] then None
    else if log[|log| - 1].schemeId == id then Some(log[|log| - 1].action)
    else LastAction(log[..|log| - 1], id)
  }

  /**
   The log agrees with the store: a scheme whose latest entry says "deleted"
   is gone, and one whose latest entry says "created" or "edited" is present.
   Schemes seeded from the data file have no entry and are not constrained.
   */
  ghost predicate AuditConsistent(st: Stores) {
    forall id :: LastAction(st.log, id).Some? ==>
      (LastAction(st.log, id) == Some(Deleted) <==> id !in st.records)
  }

  lemma LastActionAppend(log: seq<LogEntry>, e: LogEntry, id: string)
    ensures LastAction(log + [e], id) == if e.schemeId == id then Some(e.action) else LastAction(log, id)
  {
    assert (log + [e])[..|log|] == log;
  }

  /** data_entry.py lines 326-327: the save button stamps the document with its author and time. */
  function Stamp(d: Doc, user: string, now: int): (r: Doc)
    ensures Get(r, LastModifiedBy) == Some(Text(user))
    ensures Get(r, LastModifiedAt) == Some(Time(now))
    ensures forall k :: k != LastModifiedBy && k != LastModifiedAt ==> Get(r, k) == Get(d, k)
    ensures SchemeIdOf(r) == SchemeIdOf(d)
  {
    Put(Put(d, LastModifiedBy, Text(user)), LastModifiedAt, Time(now))
  }

  datatype Verdict = Inserted | BlankId | TakenId

  /**
   Saving a new scheme: a blank id or an id already in the store is refused
   and nothing is written; otherwise the stamped draft is inserted and exactly
   one "created" entry is logged. No lock is involved.
   */
  function SaveNew(st: Stores, draft: Doc, user: string, now: int): (r: (Verdict, Stores))
    ensures r.0 == BlankId <==> SchemeIdOf(draft) == ""
    ensures r.0 == TakenId <==> SchemeIdOf(draft) != "" && SchemeIdOf(draft) in st.records
    ensures r.0 != Inserted ==> r.1 == st
    ensures r.0 == Inserted ==>
      var id := SchemeIdOf(draft);
      && id !in st.records
      && r.1.records.Keys == st.records.Keys + {id}
      && r.1.records[id] == Stamp(draft, user, now)
      && (forall k :: k in st.records ==> r.1.records[k] == st.records[k])
      && r.1.locks == st.locks
      && r.1.log == st.log + [LogEntry(id, user, Created, now)]
  {
    var id := SchemeIdOf(draft);
    if id == "" then (BlankId, st)
    else if id in st.records then (TakenId, st)
    else
      (Inserted, Stores(st.records[id := Stamp(draft, user, now)], st.locks,
                        st.log + [LogEntry(id, user, Created, now)]))
  }

  /**
   Saving an existing scheme: `replace_one` on the selected id (which changes
   nothing when the scheme is gone), then the lock on it is deleted and one
   "edited" entry is logged. Other schemes and other locks are untouched.
   */
  function SaveExisting(st: Stores, id: string, edited: Doc, user: string, now: int): (r: Stores)
    ensures id !in r.locks
    ensures forall k :: k != id ==> (k in r.locks <==> k in st.locks)
    ensures forall k :: k in r.locks ==> r.locks[k] == st.locks[k]
    ensures r.records.Keys == st.records.Keys
    ensures forall k :: k in st.records && k != id ==> r.records[k] == st.records[k]
    ensures id in st.records ==> r.records[id] == Pop(Stamp(edited, user, now), MongoId)
    ensures r.log == st.log + [LogEntry(id, user, Edited, now)]
  {
    var records := if id in st.records then st.records[id := Pop(Stamp(edited, user, now), MongoId)]
                   else st.records;
    Stores(records, Release(st.locks, id), st.log + [LogEntry(id, user, Edited, now)])
  }

  /**
   Deleting a scheme bypasses the lease: the scheme is removed (a missing one
   is not an error), one "deleted" entry is logged, and the lock collection,
   including any lock on the deleted id, is left as it was.
   */
  function Delete(st: Stores, id: string, user: string, now: int): (r: Stores)
    ensures id !in r.records
    ensures r.records.Keys == st.records.Keys - {id}
    ensures forall k :: k in r.records ==> r.records[k] == st.records[k]
    ensures r.locks == st.locks
    ensures r.log == st.log + [LogEntry(id, user, Deleted, now)]
  {
    Stores(st.records - {id}, st.locks, st.log + [LogEntry(id, user, Deleted, now)])
  }

  /** The per-browser session state: the selected scheme id and the new-scheme draft. */
  datatype Session = Session(selected: Option<string>, draft: Option<Doc>)

  /** `selected_id` as a Python value: `None` when nothing is selected. */
  function SelectedValue(selected: Option<string>): Value {
    match selected
    case None => Null
    case Some(s) => Text(s)
  }

  /** `new_scheme.get("scheme_id", "")`. */
  function DraftIdValue(draft: Doc): Value {
    match Get(draft, SchemeId)
    case Some(v) => v
    case None => Text("")
  }

  /** Cancelling: a new-scheme draft is dropped; an existing scheme's lock is deleted. */
  function Cancel(st: Stores, s: Session, id: string): (r: (Session, Stores))
    ensures s.draft.Some? ==> r.0.draft.None? && r.1 == st
    ensures s.draft.None? ==> r.0 == s && r.1 == st.(locks := Release(st.locks, id))
    ensures s.draft.None? ==> id !in r.1.locks
  {
    if s.draft.Some? then (s.(draft := None), st)
    else (s, st.(locks := Release(st.locks, id)))
  }

  /**
   data_entry.py lines 136-138: a draft survives only while the selected id equals the
   draft's own scheme id.
   */
  function DiscardStaleDraft(s: Session): (r: Session)
    ensures r.selected == s.selected
    ensures r.draft.Some? ==> r.draft == s.draft
    ensures s.draft.Some? ==>
      (r.draft.None? <==> SelectedValue(s.selected) != DraftIdValue(s.draft.value))
  {
    if s.draft.Some? && SelectedValue(s.selected) != DraftIdValue(s.draft.value) then
      s.(draft := None)
    else s
  }

  datatype Opened = EditingNew(draft: Doc) | EditingExisting(record: Doc) | NotFound | LeaseDenied

  /**
   data_entry.py lines 181-192: the draft is edited without a lease; an existing scheme is
   loaded, a missing one stops the run before any lock is touched, and the
   lease must be granted before the form is shown.
   */
  function Open(st: Stores, s: Session, id: string, user: string, now: int): (r: (Opened, Stores))
    ensures s.draft.Some? ==> r == (EditingNew(s.draft.value), st)
    ensures s.draft.None? && id !in st.records ==> r == (NotFound, st)
    ensures s.draft.None? && id in st.records ==>
      (r.0.EditingExisting? <==> !HeldByOther(st.locks, id, user, now))
    ensures r.0.EditingExisting? ==>
      r.0.record == st.records[id] && r.1 == st.(locks := st.locks[id := Lock(user, now)])
    ensures !r.0.EditingExisting? ==> r.1 == st
  {
    if s.draft.Some? then (EditingNew(s.draft.value), st)
    else if id !in st.records then (NotFound, st)
    else
      var a := Acquire(st.locks, id, user, now);
      if a.granted then (EditingExisting(st.records[id]), st.(locks := a.locks))
      else (LeaseDenied, st)
  }

  /** The one button a user pressed in this run, with the form's values for a save. */
  datatype Click = NoClick | AddNew | DeleteConfirmed | SaveForm(edits: Doc) | CancelForm

  datatype Outcome =
    | NoUser | EmptyStore | NothingSelected | Removed | Missing | Locked | Showing
    | SavedNew(verdict: Verdict) | SavedExisting | Cancelled

  datatype RunResult = RunResult(outcome: Outcome, session: Session, stores: Stores)

  /**
   One run of the script for one user at time `now`, in source order: stop
   until a name is typed, stop on an empty store (where the script seeds it
   from the data file and starts again), drop a stale draft, stop when nothing is selected,
   handle the add and delete buttons, open the record (or the draft) and
   handle save or cancel. `template` is the front end's empty new-scheme
   document.
   */
  function Run(template: Doc, st: Stores, s0: Session, user: string, now: int, click: Click): (r: RunResult)
    ensures |r.stores.log| == |st.log| || |r.stores.log| == |st.log| + 1
    ensures r.stores.log[..|st.log|] == st.log
    ensures |r.stores.log| > |st.log| <==>
      r.outcome == Removed || r.outcome == SavedExisting || r.outcome == SavedNew(Inserted)
    ensures |r.stores.log| > |st.log| ==>
      r.stores.log[|st.log|].user == user && r.stores.log[|st.log|].timestamp == now
    ensures |r.stores.log| == |st.log| ==> r.stores.records == st.records
    ensures s0.selected.None? ==> r.stores == st
    ensures s0.selected.Some? ==> forall k :: k != s0.selected.value ==>
      (k in r.stores.locks <==> k in st.locks) && (k in st.locks ==> r.stores.locks[k] == st.locks[k])
  {
    if user == "" then RunResult(NoUser, s0, st)
    else if st.records == map[] then RunResult(EmptyStore, s0, st)
    else
    var s1 := DiscardStaleDraft(s0);
    if s1.selected.None? || s1.selected.value == "" then RunResult(NothingSelected, s1, st)
    else
      var id := s1.selected.value;
      if click.DeleteConfirmed? then RunResult(Removed, s1, Delete(st, id, user, now))
      else
        var s2 := if click.AddNew? then s1.(draft := Some(template)) else s1;
        var o := Open(st, s2, id, user, now);
        var st2 := o.1;
        match o.0
        case NotFound => RunResult(Missing, s2, st2)
        case LeaseDenied => RunResult(Locked, s2, st2)
        case EditingNew(draft) =>
          (match click
           case SaveForm(edits) =>
             var form := Merge(draft, edits);
             var saved := SaveNew(st2, form, user, now);
             var draft' := if saved.0 == Inserted then None else Some(Stamp(form, user, now));
             RunResult(SavedNew(saved.0), s2.(draft := draft'), saved.1)
           case CancelForm =>
             var c := Cancel(st2, s2, id);
             RunResult(Cancelled, c.0, c.1)
           case _ => RunResult(Showing, s2, st2))
        case EditingExisting(record) =>
          (match click
           case SaveForm(edits) =>
             RunResult(SavedExisting, s2, SaveExisting(st2, id, Merge(record, edits), user, now))
           case CancelForm =>
             var c := Cancel(st2, s2, id);
             RunResult(Cancelled, c.0, c.1)
           case _ => RunResult(Showing, s2, st2))
  }

  /**
   Nothing happens before a name is typed: a run without one stops at the
   name box, and it is the only run that stops there.
   */
  lemma NamelessRunChangesNothing(template: Doc, st: Stores, s0: Session, user: string, now: int, click: Click)
    ensures Run(template, st, s0, user, now, click).outcome == NoUser <==> user == ""
    ensures user == "" ==> Run(template, st, s0, user, now, click).session == s0
    ensures user == "" ==> Run(template, st, s0, user, now, click).stores == st
  {
  }

  /**
   A user whose lease was taken over cannot save or cancel over the new
   holder: while another user holds a live lock on the selected scheme, a
   save or cancel run on it writes nothing at all. This covers a session that
   still holds a stale draft, such as the "Add New Scheme" template, since the
   run drops that draft before the lease check.
   */
  lemma LiveForeignLeaseBlocksRun(template: Doc, st: Stores, s0: Session, user: string, now: int, click: Click)
    requires DiscardStaleDraft(s0).draft.None? && s0.selected.Some? && s0.selected.value != ""
    requires click.SaveForm? || click.CancelForm?
    requires HeldByOther(st.locks, s0.selected.value, user, now)
    ensures Run(template, st, s0, user, now, click).stores == st
    ensures user != "" && s0.selected.value in st.records ==> Run(template, st, s0, user, now, click).outcome == Locked
  {
  }

  /**
   A run that saves an existing scheme was granted the lease first, leaves no
   lock on the scheme, and logs exactly one "edited" entry.
   */
  lemma SavedExistingHadLease(template: Doc, st: Stores, s0: Session, user: string, now: int, click: Click)
    requires Run(template, st, s0, user, now, click).outcome == SavedExisting
    ensures s0.selected.Some?
    ensures var id := s0.selected.value;
            var r := Run(template, st, s0, user, now, click).stores;
            && id in st.records
            && !HeldByOther(st.locks, id, user, now)
            && id !in r.locks
            && r.records.Keys == st.records.Keys
            && r.log == st.log + [LogEntry(id, user, Edited, now)]
  {
  }

  /** Every operation of a run keeps the log consistent with the store. */
  lemma {:induction false} RunKeepsAuditConsistent(template: Doc, st: Stores, s0: Session, user: string, now: int, click: Click)
    requires AuditConsistent(st)
    ensures AuditConsistent(Run(template, st, s0, user, now, click).stores)
  {
    var r := Run(template, st, s0, user, now, click).stores;
    if r.log != st.log {
      assert |r.log| == |st.log| + 1 && r.log[..|st.log|] == st.log;
      var e := r.log[|st.log|];
      assert r.log == st.log + [e];
      forall id | LastAction(r.log, id).Some?
        ensures LastAction(r.log, id) == Some(Deleted) <==> id !in r.records
      {
        LastActionAppend(st.log, e, id);
      }
    }
  }

  /**
   A run touches only its own scheme: every other stored scheme keeps its
   record, and the only scheme a run can add is the new one whose "created"
   entry it logs.
   */
  lemma RunTouchesOnlyItsScheme(template: Doc, st: Stores, s0: Session, user: string, now: int, click: Click)
    ensures var r := Run(template, st, s0, user, now, click);
            forall k :: k in st.records && s0.selected != Some(k) ==>
              k in r.stores.records && r.stores.records[k] == st.records[k]
    ensures var r := Run(template, st, s0, user, now, click);
            forall k :: k in r.stores.records && k !in st.records ==>
              r.outcome == SavedNew(Inserted) && r.stores.log == st.log + [LogEntry(k, user, Created, now)]
  {
  }

  /** Writing a form whose id is absent or unchanged keeps the scheme's id. */
  lemma MergeKeepsSchemeId(record: Doc, edits: Doc, id: string)
    requires SchemeIdOf(record) == id
    requires Get(edits, SchemeId).None? || Get(edits, SchemeId) == Some(Text(id))
    ensures SchemeIdOf(Merge(record, edits)) == id
  {
    assert Get(Merge(record, edits), SchemeId) == Get(record, SchemeId)
        || Get(Merge(record, edits), SchemeId) == Some(Text(id));
  }

  lemma SaveExistingKeepsKeyed(st: Stores, id: string, edited: Doc, user: string, now: int)
    requires KeyedById(st.records) && SchemeIdOf(edited) == id
    ensures KeyedById(SaveExisting(st, id, edited, user, now).records)
  {
    assert SchemeIdOf(Pop(Stamp(edited, user, now), MongoId)) == id;
  }

  lemma SaveNewKeepsKeyed(st: Stores, draft: Doc, user: string, now: int)
    requires KeyedById(st.records)
    ensures KeyedById(SaveNew(st, draft, user, now).1.records)
  {
  }

  /**
   Every run keeps each stored scheme under its own id, provided the form does
   not change an existing scheme's id (its id widget is disabled for an
   existing scheme). A new scheme's typed id is free: it is inserted under it.
   */
  lemma RunKeepsKeyedById(template: Doc, st: Stores, s0: Session, user: string, now: int, click: Click)
    requires KeyedById(st.records)
    requires click.SaveForm? && s0.selected.Some? && DiscardStaleDraft(s0).draft.None? ==>
      Get(click.edits, SchemeId).None? || Get(click.edits, SchemeId) == Some(Text(s0.selected.value))
    ensures KeyedById(Run(template, st, s0, user, now, click).stores.records)
  {
    var s1 := DiscardStaleDraft(s0);
    if s1.selected.Some? && s1.selected.value != "" && !click.DeleteConfirmed? {
      var id := s1.selected.value;
      var s2 := if click.AddNew? then s1.(draft := Some(template)) else s1;
      var o := Open(st, s2, id, user, now);
      if o.0.EditingExisting? && click.SaveForm? {
        MergeKeepsSchemeId(o.0.record, click.edits, id);
        SaveExistingKeepsKeyed(o.1, id, Merge(o.0.record, click.edits), user, now);
      } else if o.0.EditingNew? && click.SaveForm? {
        SaveNewKeepsKeyed(o.1, Merge(o.0.draft, click.edits), user, now);
      }
    }
  }
}

=== FILE: text.dfy ===
/**
 The text rules the editor applies to multi-line fields: Python's `str.strip()`
 (restricted to ASCII whitespace), the "strip every line and drop the blank
 ones" normalisation, and the `"\n".join` / `str.splitlines()` pair that moves
 a list field into a text area and back.
 */
module Text {

  /** The ASCII characters for which Python's `str.isspace()` holds. */
  predicate IsSpace(c: char) {
    c == ' ' || c == '\t' || c == '\n' || c == '\r' || c == '\U{0B}' || c == '\U{0C}'
    || ('\U{1C}' <= c <= '\U{1F}')
  }

  predicate AllSpace(s: string) {
    forall k :: 0 <= k < |s| ==> IsSpace(s[k])
  }

  /** No whitespace at either end. */
  predicate IsStripped(s: string) {
    s == [] || (!IsSpace(s[0]) && !IsSpace(s[|s| - 1]))
  }

  /** The end of the run of whitespace that starts at `i`. */
  function SpaceRunEnd(s: string, i: nat): (n: nat)
    requires i <= |s|
    ensures i <= n <= |s|
    ensures forall k :: i <= k < n ==> IsSpace(s[k])
    ensures n == |s| || !IsSpace(s[n])
    decreases |s| - i
  {
    if i < |s| && IsSpace(s[i]) then SpaceRunEnd(s, i + 1) else i
  }

  /** The start of the run of whitespace that ends at `j`, looking no further back than `lo`. */
  function SpaceRunStart(s: string, lo: nat, j: nat): (n: nat)
    requires lo <= j <= |s|
    ensures lo <= n <= j
    ensures forall k :: n <= k < j ==> IsSpace(s[k])
    ensures n == lo || !IsSpace(s[n - 1])
    decreases j
  {
    if j > lo && IsSpace(s[j - 1]) then SpaceRunStart(s, lo, j - 1) else j
  }

  /** `str.strip()`: the line without its leading and trailing whitespace. */
  function Strip(s: string): (r: string)
    ensures IsStripped(r)
    ensures r == [] <==> AllSpace(s)
    ensures |r| <= |s|
    ensures exists b, e :: 0 <= b <= e <= |s| && r == s[b..e] && AllSpace(s[..b]) && AllSpace(s[e..])
  {
    var b := SpaceRunEnd(s, 0);
    var e := SpaceRunStart(s, b, |s|);
    assert AllSpace(s[..b]) by {
      forall k | 0 <= k < b ensures IsSpace(s[..b][k]) { assert s[..b][k] == s[k]; }
    }
    assert AllSpace(s[e..]) by {
      forall k | 0 <= k < |s| - e ensures IsSpace(s[e..][k]) { assert s[e..][k] == s[e + k]; }
    }
    s[b..e]
  }

  /**
   The strip is the only way to cut a line into whitespace, a non-blank core
   with no whitespace at either end, and whitespace.
   */
  lemma StripUnique(s: string, b: nat, e: nat)
    requires b <= e <= |s|
    requires AllSpace(s[..b]) && AllSpace(s[e..])
    requires s[b..e] != [] && IsStripped(s[b..e])
    ensures Strip(s) == s[b..e]
  {
    assert s[b..e][0] == s[b] && s[b..e][e - b - 1] == s[e - 1];
  }

  /** Stripping keeps a part of the line, so it adds no line feed. */
  lemma StripNewlineFree(s: string)
    requires '\n' !in s
    ensures '\n' !in Strip(s)
  {
    var b := SpaceRunEnd(s, 0);
    var e := SpaceRunStart(s, b, |s|);
    var r := s[b..e];
    forall i | 0 <= i < |r| ensures r[i] != '\n' {
      assert r[i] == s[b + i];
    }
  }

  /** Stripping is idempotent, and a stripped string is its own strip. */
  lemma StripFixesStripped(s: string)
    requires IsStripped(s)
    ensures Strip(s) == s
  {
  }

  /**
   The normalisation applied to every list-valued field on save: each line is
   stripped and the lines that strip to nothing are dropped, keeping order.
   */
  function NormaliseLines(lines: seq<string>): (r: seq<string>)
    ensures |r| <= |lines|
    ensures forall k :: 0 <= k < |r| ==> r[k] != [] && IsStripped(r[k])
  {
    if lines == [] then []
    else
      var t := Strip(lines[0]);
      (if t == [] then [] else [t]) + NormaliseLines(lines[1..])
  }

  /** A line survives normalisation, stripped, exactly when it is not blank. */
  lemma {:induction false} NormaliseMembership(lines: seq<string>, x: string)
    ensures x in NormaliseLines(lines) <==> x != [] && exists l :: l in lines && Strip(l) == x
  {
    if lines != [] {
      NormaliseMembership(lines[1..], x);
      assert forall l :: l in lines <==> l == lines[0] || l in lines[1..];
    }
  }

  lemma AppendAssoc<T>(x: seq<T>, y: seq<T>, z: seq<T>)
    ensures x + (y + z) == (x + y) + z
  {
  }

  /**
   Normalisation works line by line: normalising a concatenation is the
   concatenation of the normalised parts, so no line is moved past another.
   */
  lemma {:induction false} NormaliseDistributes(a: seq<string>, b: seq<string>)
    ensures NormaliseLines(a + b) == NormaliseLines(a) + NormaliseLines(b)
  {
    if a == [] {
      assert a + b == b;
    } else {
      var t := Strip(a[0]);
      var head: seq<string> := if t == [] then [] else [t];
      assert (a + b)[0] == a[0];
      assert (a + b)[1..] == a[1..] + b;
      assert NormaliseLines(a + b) == head + NormaliseLines(a[1..] + b);
      assert NormaliseLines(a) == head + NormaliseLines(a[1..]);
      NormaliseDistributes(a[1..], b);
      AppendAssoc(head, NormaliseLines(a[1..]), NormaliseLines(b));
    }
  }

  /** Normalising an already normalised list changes nothing. */
  lemma {:induction false} NormaliseIdempotent(lines: seq<string>)
    ensures NormaliseLines(NormaliseLines(lines)) == NormaliseLines(lines)
  {
    if lines != [] {
      var t := Strip(lines[0]);
      var head: seq<string> := if t == [] then [] else [t];
      var rest := NormaliseLines(lines[1..]);
      assert NormaliseLines(lines) == head + rest;
      NormaliseIdempotent(lines[1..]);
      NormaliseDistributes(head, rest);
      assert NormaliseLines(head) == head by {
        if t != [] {
          StripFixesStripped(t);
          assert head[1..] == [];
        }
      }
    }
  }

  /** `"\n".join(lines)`. */
  function Join(lines: seq<string>): (r: string)
    ensures lines == [] ==> r == []
    ensures (forall k :: 0 <= k < |lines| ==> '\n' !in lines[k]) ==> |r| >= |lines| - 1
  {
    if lines == [] then []
    else if |lines| == 1 then lines[0]
    else lines[0] + "\n" + Join(lines[1..])
  }

  /** The joined text starts with the first item and ends with the last one. */
  lemma {:induction false} JoinEnds(lines: seq<string>)
    requires lines != []
    ensures lines[0] <= Join(lines)
    ensures var last := lines[|lines| - 1];
            |last| <= |Join(lines)| && Join(lines)[|Join(lines)| - |last|..] == last
  {
    if |lines| > 1 {
      JoinEnds(lines[1..]);
      assert lines[1..][|lines[1..]| - 1] == lines[|lines| - 1];
    }
  }

  /** Length of the first line of `s`, up to (not including) the first line feed. */
  function FirstLineLength(s: string): (n: nat)
    ensures n <= |s|
    ensures '\n' !in s[..n]
    ensures n < |s| ==> s[n] == '\n'
  {
    if s == [] || s[0] == '\n' then 0 else 1 + FirstLineLength(s[1..])
  }

  /**
   `str.splitlines()` with line feed as the only line boundary: an empty
   string has no lines, and a final line feed does not open an empty line.
   */
  function SplitLines(s: string): (r: seq<string>)
    ensures s == [] <==> r == []
    ensures forall k :: 0 <= k < |r| ==> '\n' !in r[k]
    ensures if s != [] && s[|s| - 1] == '\n' then Join(r) + "\n" == s else Join(r) == s
    decreases |s|
  {
    if s == [] then []
    else
      var n := FirstLineLength(s);
      if n == |s| then [s]
      else
        var rest := SplitLines(s[n + 1..]);
        var r := [s[..n]] + rest;
        assert r[0] == s[..n] && r[1..] == rest;
        assert s == s[..n] + "\n" + s[n + 1..];
        if rest == [] then r
        else
          assert Join(r) == s[..n] + "\n" + Join(rest);
          AppendAssoc(s[..n] + "\n", Join(rest), "\n");
          r
  }

  lemma {:induction false} FirstLineOfJoin(x: string, rest: string)
    requires '\n' !in x
    ensures FirstLineLength(x + "\n" + rest) == |x|
  {
    if x != [] {
      assert (x + "\n" + rest)[1..] == x[1..] + "\n" + rest;
      FirstLineOfJoin(x[1..], rest);
    }
  }

  lemma {:induction false} FirstLineOfLine(x: string)
    requires '\n' !in x
    ensures FirstLineLength(x) == |x|
  {
    if x != [] {
      FirstLineOfLine(x[1..]);
    }
  }

  /**
   Showing a list in a text area and splitting it back gives the same list,
   provided no item is empty or holds a line feed.
   */
  lemma {:induction false} SplitJoinRoundTrip(lines: seq<string>)
    requires forall k :: 0 <= k < |lines| ==> lines[k] != [] && '\n' !in lines[k]
    ensures SplitLines(Join(lines)) == lines
  {
    if |lines| == 1 {
      FirstLineOfLine(lines[0]);
    } else if |lines| > 1 {
      var x, rest := lines[0], Join(lines[1..]);
      var s := x + "\n" + rest;
      FirstLineOfJoin(x, rest);
      assert s[..|x|] == x;
      assert s[|x| + 1..] == rest;
      SplitJoinRoundTrip(lines[1..]);
    }
  }

  /** Lines without a line feed stay without one when normalised. */
  lemma {:induction false} NormaliseNewlineFree(lines: seq<string>)
    requires forall k :: 0 <= k < |lines| ==> '\n' !in lines[k]
    ensures forall k :: 0 <= k < |NormaliseLines(lines)| ==> '\n' !in NormaliseLines(lines)[k]
  {
    if lines != [] {
      NormaliseNewlineFree(lines[1..]);
      StripNewlineFree(lines[0]);
      var t := Strip(lines[0]);
      var head: seq<string> := if t == [] then [] else [t];
      assert NormaliseLines(lines) == head + NormaliseLines(lines[1..]);
    }
  }

  /**
   The round trip of a list field through the edit form: a normalised list
   whose lines hold no line feed is shown joined, split again on save and
   normalised again, and comes back unchanged, in the same order.
   */
  lemma FormRoundTrip(lines: seq<string>)
    requires forall k :: 0 <= k < |lines| ==> '\n' !in lines[k]
    ensures NormaliseLines(SplitLines(Join(NormaliseLines(lines)))) == NormaliseLines(lines)
  {
    NormaliseNewlineFree(lines);
    SplitJoinRoundTrip(NormaliseLines(lines));
    NormaliseIdempotent(lines);
  }

  /**
   What a text area turns into on save: its text split into lines, each line
   stripped, blank lines dropped.
   */
  function LinesOfText(text: string): (r: seq<string>)
    ensures forall k :: 0 <= k < |r| ==> r[k] != [] && IsStripped(r[k]) && '\n' !in r[k]
  {
    NormaliseNewlineFree(SplitLines(text));
    NormaliseLines(SplitLines(text))
  }

  /**
   A list that went through the text area once comes back unchanged when it
   is shown and saved again without edits.
   */
  lemma LinesOfTextSettles(text: string)
    ensures LinesOfText(Join(LinesOfText(text))) == LinesOfText(text)
  {
    FormRoundTrip(SplitLines(text));
  }

  /** Lines that are already stripped and non-blank pass normalisation unchanged. */
  lemma {:induction false} NormaliseFixesClean(lines: seq<string>)
    requires forall k :: 0 <= k < |lines| ==> lines[k] != [] && IsStripped(lines[k])
    ensures NormaliseLines(lines) == lines
  {
    if lines != [] {
      StripFixesStripped(lines[0]);
      NormaliseFixesClean(lines[1..]);
    }
  }

  /**
   A saved list field that is shown in its text area and saved again without
   edits comes back as it was.
   */
  lemma ShownListSurvivesSave(items: seq<string>)
    requires forall k :: 0 <= k < |items| ==> items[k] != [] && IsStripped(items[k]) && '\n' !in items[k]
    ensures LinesOfText(Join(items)) == items
  {
    SplitJoinRoundTrip(items);
    NormaliseFixesClean(items);
  }
}

=== FILE: working.dfy ===
/**
 The older front end, `working.py`. It shares the stores and the save and
 delete transitions with the newer one (module `Schemes`), but keeps its own
 copy of `acquire_lock`, its own new-scheme template, a generic edit form that
 walks the document's keys, and its own notion of a missing field.
 */
module Working {
  import opened Base
  import opened Text
  import opened Docs
  import opened Leases
  import opened Schemes
  import DataEntry

  /**
   Lines 23-36: the older copy of `acquire_lock`, written from the lock
   document `find_one` returns. The lease is granted unless a lock of another
   user is at most 300 seconds old, and a grant leaves the lock as (user, now).
   */
  function AcquireLock(locks: LockTable, id: string, user: string, now: int): (r: (bool, LockTable))
    ensures r.0 <==> id !in locks || now - locks[id].lockedAt > 300 || locks[id].holder == user
    ensures r.0 ==> id in r.1 && r.1[id] == Lock(user, now)
    ensures r.0 ==> forall k :: k != id ==> (k in r.1 <==> k in locks) && (k in r.1 ==> r.1[k] == locks[k])
    ensures !r.0 ==> r.1 == locks
  {
    var found := if id in locks then Some(locks[id]) else None;
    match found
    case None => (true, locks[id := Lock(user, now)])
    case Some(lockDoc) =>
      if now - lockDoc.lockedAt > 300 then (true, locks[id := Lock(user, now)])
      else if lockDoc.holder == user then (true, locks[id := lockDoc.(lockedAt := now)])
      else (false, locks)
  }

  /** The two copies of `acquire_lock` agree on every input: same answer, same lock table. */
  lemma AcquireLockAgrees(locks: LockTable, id: string, user: string, now: int)
    ensures AcquireLock(locks, id, user, now) == (Acquire(locks, id, user, now).granted, Acquire(locks, id, user, now).locks)
  {
    var r := AcquireLock(locks, id, user, now);
    var a := Acquire(locks, id, user, now);
    assert r.0 == a.granted;
    if r.0 {
      assert r.1 == a.locks by {
        assert r.1.Keys == a.locks.Keys;
      }
    }
  }

  /** working.py lines 67-73: the value the older template literal gives each key. */
  function TemplateValue(k: Key): Value {
    match k
    case Assistance => Lines([])
    case RequiredDocuments => Lines([])
    case LastModifiedBy => Null
    case LastModifiedAt => Null
    case _ => Text("")
  }

  /**
   The older template. Unlike the newer one, its eligibility is an empty
   string, so the generic form treats it as a text field.
   */
  function Template(): (r: Doc)
    ensures Keys(r) == DataEntry.TemplateOrder
    ensures Get(r, SchemeId) == Some(Text(""))
    ensures Get(r, Eligibility) == Some(Text(""))
  {
    Doc(map k | k in DataEntry.TemplateOrder :: TemplateValue(k), DataEntry.TemplateOrder)
  }

  lemma TemplateWellFormed()
    ensures WellFormed(Template())
  {
    var r := Template();
    DataEntry.TemplateOrderDistinct();
    assert r.values.Keys == set k | k in DataEntry.TemplateOrder;
    OrderMatchesFromKeys(r.order, r.values);
  }

  /* ---- the generic edit form, lines 107-116 ---- */

  /**
   The value a field holds after the form has run. A list is shown joined
   with line feeds and comes back as the stripped, non-blank lines of the text
   area; any other value comes back as the text area's text, which is
   `value or ""` when the user leaves it alone. `typed` is the text the user
   left in the widget, if they changed it. What an untouched text area makes
   of a timestamp or a non-empty embedded object is not modelled: such a value
   is kept.
   */
  function FieldAfterForm(v: Value, typed: Option<string>): (r: Value)
    ensures v.Lines? ==> r.Lines?
    ensures v.Lines? ==>
      forall k :: 0 <= k < |r.items| ==> r.items[k] != [] && IsStripped(r.items[k]) && '\n' !in r.items[k]
    ensures !v.Lines? && typed.Some? ==> r == Text(typed.value)
    ensures !v.Lines? && typed.None? && (v == Null || v == Dict([])) ==> r == Text("")
    ensures !v.Lines? && typed.None? && v.Text? ==> r == v
  {
    match v
    case Lines(items) => Lines(LinesOfText(if typed.Some? then typed.value else Join(items)))
    case _ =>
      if typed.Some? then Text(typed.value)
      else match v
        case Null => Text("")
        case Dict(entries) => if entries == [] then Text("") else v
        case _ => v
  }

  /** A list field's value after the form is exactly what its text area holds, normalised. */
  lemma ListFieldIsNormalisedText(items: seq<string>, typed: Option<string>)
    ensures var text := if typed.Some? then typed.value else Join(items);
      FieldAfterForm(Lines(items), typed) == Lines(NormaliseLines(SplitLines(text)))
  {
  }

  /** Running the form twice with the same widget texts gives what running it once gave. */
  lemma FieldAfterFormSettles(v: Value, typed: Option<string>)
    ensures FieldAfterForm(FieldAfterForm(v, typed), typed) == FieldAfterForm(v, typed)
  {
    if v.Lines? && typed.None? {
      LinesOfTextSettles(Join(v.items));
    }
  }

  function Typed(typed: map<Key, string>, k: Key): Option<string> {
    if k in typed then Some(typed[k]) else None
  }

  /** The loop of lines 109-116 over the keys `ks`, skipping `scheme_id`. */
  function FillKeys(d: Doc, ks: seq<Key>, typed: map<Key, string>): (r: Doc)
    requires Distinct(ks)
    ensures r.order == d.order
    ensures forall k :: k in ks && k != SchemeId && Get(d, k).Some? ==>
      Get(r, k) == Some(FieldAfterForm(Get(d, k).value, Typed(typed, k)))
    ensures forall k :: !(k in ks && k != SchemeId && Get(d, k).Some?) ==> Get(r, k) == Get(d, k)
    decreases |ks|
  {
    if ks == [] then d
    else
      var k := ks[0];
      assert Distinct(ks[1..]) && k !in ks[1..] by {
        forall i, j | 0 <= i < j < |ks[1..]| ensures ks[1..][i] != ks[1..][j] {
          assert ks[1..][i] == ks[i + 1] && ks[1..][j] == ks[j + 1];
        }
        assert forall j :: 0 <= j < |ks[1..]| ==> ks[1..][j] == ks[j + 1];
      }
      var d' := if k == SchemeId || k !in d.values then d else Put(d, k, FieldAfterForm(d.values[k], Typed(typed, k)));
      FillKeys(d', ks[1..], typed)
  }

  /**
   Lines 107-116: the form first writes the scheme-id widget's text, then
   visits every key in dict order. The document keeps its keys and their
   order; the id becomes `idText`; every other field becomes its value after
   the form.
   */
  function FillForm(d: Doc, idText: string, typed: map<Key, string>): (r: Doc)
    requires WellFormed(d)
    ensures WellFormed(r)
    ensures Keys(r) == if SchemeId in Keys(d) then Keys(d) else Keys(d) + [SchemeId]
    ensures Get(r, SchemeId) == Some(Text(idText))
    ensures forall k :: k != SchemeId ==>
      Get(r, k) == if Get(d, k).Some? then Some(FieldAfterForm(Get(d, k).value, Typed(typed, k))) else None
  {
    var d1 := Put(d, SchemeId, Text(idText));
    PutKeepsWellFormed(d, SchemeId, Text(idText));
    OrderMatchesKeys(d1.order, d1.values);
    var r := FillKeys(d1, d1.order, typed);
    assert WellFormed(r) by {
      assert r.values.Keys == d1.values.Keys by {
        forall k ensures k in r.values <==> k in d1.values {
          assert Get(r, k).Some? <==> Get(d1, k).Some?;
        }
      }
      OrderMatchesKeys(d1.order, d1.values);
      OrderMatchesFromKeys(r.order, r.values);
    }
    r
  }

  /**
   A second submission of an untouched form changes nothing: list fields are
   already normalised, and every other field is already the text it shows.
   */
  lemma FillFormSettles(d: Doc, idText: string, typed: map<Key, string>)
    requires WellFormed(d)
    ensures FillForm(FillForm(d, idText, typed), idText, typed) == FillForm(d, idText, typed)
  {
    var once := FillForm(d, idText, typed);
    var twice := FillForm(once, idText, typed);
    forall k ensures Get(twice, k) == Get(once, k) {
      if k != SchemeId && Get(d, k).Some? {
        FieldAfterFormSettles(Get(d, k).value, Typed(typed, k));
      }
    }
    SameGetsSameDoc(twice, once);
  }

  /* ---- the missing-keys list, line 143 ---- */

  /** `v in (None, [], "")`: an empty embedded object does not count as blank here. */
  predicate IsBlank(v: Value) {
    v == Null || v == Lines([]) || v == Text("")
  }

  /** Key `k` of `d` is reported: it is neither `scheme_id` nor `tags`, and its value is blank. */
  predicate Reported(d: Doc, k: Key) {
    k != SchemeId && k != Tags && Get(d, k).Some? && IsBlank(Get(d, k).value)
  }

  function ReportedAmong(ks: seq<Key>, d: Doc): (r: seq<Key>)
    ensures forall k :: k in r <==> k in ks && Reported(d, k)
    ensures IsSubsequence(r, ks)
  {
    if ks == [] then []
    else
      var rest := ReportedAmong(ks[1..], d);
      if Reported(d, ks[0]) then [ks[0]] + rest else rest
  }

  /**
   Line 143: the keys with a blank value other than `scheme_id` and `tags`,
   in dict order.
   */
  function MissingKeys(d: Doc): (r: seq<Key>)
    ensures forall k :: k in r <==> k in Keys(d) && Reported(d, k)
    ensures IsSubsequence(r, Keys(d))
  {
    ReportedAmong(Keys(d), d)
  }

  /**
   Where the two front ends disagree on a required field: both report a
   present field that holds None, "" or [], but only the newer one reports a
   field holding an empty embedded object, and only the newer one reports a
   field the document does not have at all.
   */
  lemma MissingAgreesWithRequired(d: Doc, k: Key)
    requires WellFormed(d) && k in DataEntry.RequiredFields
    ensures k in Keys(d) && Get(d, k) != Some(Dict([])) ==>
      (k in MissingKeys(d) <==> k in DataEntry.MissingFields(d))
    ensures k in Keys(d) && Get(d, k) == Some(Dict([])) ==>
      k !in MissingKeys(d) && k in DataEntry.MissingFields(d)
    ensures k !in Keys(d) ==> k !in MissingKeys(d) && k in DataEntry.MissingFields(d)
  {
    GetPresent(d, k);
    assert k != SchemeId && k != Tags;
    assert k in DataEntry.MissingFields(d) <==> DataEntry.Unfilled(d, k);
    assert k in MissingKeys(d) <==> k in Keys(d) && Reported(d, k);
  }

  /* ---- the draft, lines 60-62 ---- */

  /**
   With a scheme selected, the draft survives a run exactly when its own
   scheme id is that scheme's id (a draft without one counts as "").
   */
  lemma DraftKeptIffSameId(sel: string, draft: Doc)
    ensures DiscardStaleDraft(Session(Some(sel), Some(draft))).draft.Some?
        <==> Get(draft, SchemeId) == Some(Text(sel)) || (Get(draft, SchemeId).None? && sel == "")
  {
  }

  /**
   The older template's draft has scheme id "", and the select box always
   holds some stored scheme's id, so the draft is dropped on the next run
   unless a scheme with id "" is stored.
   */
  lemma TemplateDraftDroppedOnNextRun(sel: string)
    requires sel != ""
    ensures DiscardStaleDraft(Session(Some(sel), Some(Template()))).draft.None?
  {
  }
}
